=== FILE: README.md ===
# Tennis marketplace backend: decision logic in Dafny

This project models the hand-written decision logic of a small marketplace backend for tennis gear, an Express application over a document database and a Redis store. The model has eight modules.

- `RateLimiting` (rate_limiting.dfy) covers the per-address token bucket that runs before every route.
  - Each bucket refills at 30 tokens per 60000 ms and holds at most 30 tokens.
  - An admitted request spends one token.
  - A refused request is forwarded as a 429 error.
  - The model covers one decision, runs of decisions for one address, and an in-memory store of many addresses.
- `Authentication` (authentication.dfy) covers the token payload issued at login and the parsing of `Authorization: Bearer <token>` headers.
  - JWT signing and verifying are function parameters.
- `Products` (products.dfy) covers the product routes.
  - The paged listing: page defaulting and clamping, the slice, and the navigation links.
  - The permission decisions of create, patch, replace and delete.
- `Users` (users.dfy) covers the user routes: the create-account decision chain, the login checks, and who may read an account.
- `Items` (items.dfy) covers the item schema's type list, the UPC pattern, and the post-validation hook that requires a size record for apparel.
- `App` (app.js in app.dfy) covers two parts of the application:
  - the middleware in front of the routers (rate limiting, then the OPTIONS preflight);
  - the final error handler: defaulting, the production translation order, and the development and production replies.
- `Errors` and `Text` hold the shared vocabulary:
  - JavaScript's optional values and truthiness, and the `Error` objects the handlers build;
  - the string built-ins the handlers use: `trim`, `split(' ')`, `includes`, `toUpperCase`, `parseInt`, and decimal rendering inside template literals.

Every database query, store read, clock reading, JWT call and password check is an input. The model decides what the handler does with the result:
- `Allow` stands for going on to run the write;
- `Deny(err)` stands for `next(err)`.

## Model

| member | source | states |
|---|---|---|
| RateLimiting.GetTokenBucket | lib/rate_limiting.js:11-29 | A stored bucket is used as stored. An address never seen gets a bucket of exactly 30 tokens, stamped with the clock reading taken while loading. A store error is passed on unchanged. |
| RateLimiting.RefreshRateIsWindowRate | lib/rate_limiting.js:8-9 | The refill rate 0.0005 tokens per ms is exactly 30 tokens per 60000 ms window, so one token regrows in exactly 2000 ms. |
| RateLimiting.Refill | lib/rate_limiting.js:47-51 | The refilled count never exceeds 30 and never exceeds the old count plus 30/60000 per elapsed millisecond. Below the cap it equals that sum. For a valid bucket and a clock that does not run backwards it never drops below the old count. |
| RateLimiting.Step | lib/rate_limiting.js:47-63 | A request is admitted exactly when the refilled count is at least 1. Admission spends exactly one token; a refusal keeps the partially refilled count. `last` becomes the decision time on both paths. A bucket within 0..30 stays within 0..30 when time does not run backwards. |
| RateLimiting.StepConserves | lib/rate_limiting.js:47-57 | One decision never creates tokens: the admission, if any, plus the tokens left are at most the old tokens plus the refill earned since the last decision. |
| RateLimiting.RateLimit | lib/rate_limiting.js:43-67 | A store error is forwarded and nothing is saved. Otherwise the updated bucket is saved on both paths. The decision is `next()` or `next(err)` with the 'Rate Limiting' 429 error, as the refilled count allows. An unknown address gets a full bucket stamped with the clock reading taken while loading, and is admitted exactly when that bucket refilled to the decision time holds at least one token; when that reading is not later than the decision time it is admitted and saved with 29 tokens. |
| RateLimiting.ClockRegressionDrivesTokensNegative | lib/rate_limiting.js:48-51 | Only the top of the refill is capped: a clock that runs backwards leaves a valid bucket with a negative count. |
| RateLimiting.DeniedRequestIsFree | lib/rate_limiting.js:58-63 | A refused request keeps exactly the refill it earned. The next decision, at any time, is the one that would have been made had the refused request never arrived. |
| RateLimiting.WaitingOneTokenAdmits | lib/rate_limiting.js:48-57 | A client whose bucket is valid and who waits 2000 ms, the time one token takes to regrow, is admitted. |
| RateLimiting.RunStaysValid | lib/rate_limiting.js:47-57 | Over any run of requests with non-decreasing timestamps, the bucket stays within 0..30 tokens. |
| RateLimiting.RunConservesTokens | lib/rate_limiting.js:47-57 | Over any run, admissions plus the tokens left never exceed the starting tokens plus the refill earned by the elapsed time. |
| RateLimiting.RunRateBound | lib/rate_limiting.js:47-57 | With non-decreasing timestamps, one address is admitted at most 30 times plus once per 2000 ms elapsed. |
| RateLimiting.SameInstantBurst | lib/rate_limiting.js:50-59 | `n` requests at the instant of the last decision admit the first `min(n, floor(tokens))` and refuse the rest. The admitted ones spend exactly their number of tokens. |
| RateLimiting.BurstAdmittedCount | lib/rate_limiting.js:50-59 | A burst of `n` requests at the instant of the last decision counts exactly `min(n, floor(tokens))` admissions. |
| RateLimiting.FullBucketBurst | lib/rate_limiting.js:20-57 | From a fresh bucket, 30 requests at one instant are admitted, the 31st is refused, and the bucket is left empty. |
| RateLimiting.SteadyClientAlwaysAdmitted | lib/rate_limiting.js:47-57 | Requests spaced at least 2000 ms apart are all admitted. |
| RateLimiting.RecoveryAfterBurst | lib/rate_limiting.js:47-63 | After the 30 admitted requests and the refused 31st at one instant, a request 2000 ms later is admitted again. |
| RateLimiting.RunAppend | lib/rate_limiting.js:47-57 | One more request after a run is decided on the run's final bucket. |
| RateLimiting.Serve | lib/rate_limiting.js:43-64 | One request against a store of buckets keyed by address: its address's bucket is loaded, stepped and written back, and no other address's record changes. |
| RateLimiting.AddressesAreIndependent | lib/rate_limiting.js:43-64 | Interleaving other addresses' requests does not change the verdicts one address receives. They are exactly those of its own bucket run over its own timestamps. |
| Authentication.GenerateAuthToken | lib/authentication.js:5-14 | The payload carries the given id and username, and the account's privilege as its access level. It carries no `priviledge` claim. It is an administrator's exactly when the privilege is ADMIN. |
| Authentication.ExtractToken | lib/authentication.js:17-19 | A missing header yields no token, and an extracted token never contains a space. |
| Authentication.ExtractTokenIff | lib/authentication.js:17-19 | A token is extracted exactly when the header is `Bearer`, one space, then a space-free token followed by nothing or a space. The token is that second field. |
| Authentication.RequireAuthentication | lib/authentication.js:16-29 | The request never fails here. The user is the verifier's answer for the extracted token, or none when there is no token or verification fails. |
| Authentication.IssuedTokenAuthenticates | lib/authentication.js:5-29 | A signed payload sent back as `Bearer <token>` authenticates its holder as exactly that payload. This assumes the verifier accepts what the signer produced. |
| Authentication.NoBearerIsAnonymous | lib/authentication.js:16-29 | Without a header, or with any header that is not a bearer header, the request proceeds anonymously. |
| Text.Split | lib/authentication.js:18 | `split(' ')` yields at least one field, no field contains the separator, and the first field is the text before the first separator. |
| Text.JoinSplit | lib/authentication.js:18 | Joining the fields of a split with the separator gives back the original text. |
| Text.SplitJoin | lib/authentication.js:18 | Splitting a join of separator-free fields gives back the fields. |
| Text.ContainsIff | api/models/item.js:140-142 | The left-to-right `includes` scan succeeds exactly when the word occurs at some position. |
| Text.TrimStartSkipsPadding | api/models/item.js:35 | Leading whitespace never changes what trimming leaves. |
| Text.ToUpper | api/models/user.js:32-37 | The upper-cased privilege has the same length and upper-cases each ASCII letter in place. |
| Text.NatToString | api/routes/products.js:52-58 | The page number in a link is rendered as decimal digits without a leading zero, and 0 as "0". |
| Text.ParseIntNatToString | api/routes/products.js:21 | `parseInt` reads a rendered page number back as that number. |
| Products.PageParam | api/routes/products.js:21 | A `page` query that parses to a non-zero number n asks for page n. A missing, non-numeric or zero `page` query becomes page 1, so the result is never 0. |
| Products.LastPage | api/routes/products.js:27 | `totalPages` is the ceiling of count/10: its pages cover every product, one page fewer would not, and it is 0 exactly when there are no products. |
| Products.ServedPage | api/routes/products.js:28-29 | With products, the served page lies within 1..lastPage: a page in range is kept, lower pages become 1 and higher pages become the last. With no products the page ends at 0. |
| Products.JsSlice | api/routes/products.js:33 | `slice(start, end)` with in-range bounds is the sub-sequence from start up to, but not including, end. An end past the array stops at the array's end. |
| Products.SummarizeAll | api/routes/products.js:35-48 | Each listed entry is the summary of the product at the same position. |
| Products.PageProducts | api/routes/products.js:31-48 | A page that starts inside the list shows the summaries of the products from its first position up to the slice width further, clipped to the list; it never shows more than the slice width, and an empty list shows nothing. |
| Products.PageLinks | api/routes/products.js:50-58 | The first and last links are always present. `prevPage` is present exactly above page 1, and `nextPage` exactly below the last page. |
| Products.Paginate | api/routes/products.js:19-67 | The response reports the total count, page size 10 and totalPages = lastPage. A page shows at most 9 products. With products the page number is within 1..totalPages; without, it is 0 and the page is empty. |
| Products.ListingShowsWindow | api/routes/products.js:31-33 | A page shows exactly the products at positions (page-1)*10 up to, but not including, (page-1)*10+9, clipped to the list. |
| Products.ListingLinks | api/routes/products.js:50-58 | `firstPage` is "/products/?page=1" and `lastPage` names totalPages. `prevPage` and `nextPage` are present exactly above page 1 and below the last page. |
| Products.FollowingLinksMovesOnePage | api/routes/products.js:21-58 | Requesting the `nextPage` link's query serves the following page; the `prevPage` link's query serves the preceding one. |
| Products.FollowingNextLink | api/routes/products.js:21-58 | Requesting the `nextPage` link's query serves the page after the current one. |
| Products.FollowingPrevLink | api/routes/products.js:21-58 | Requesting the `prevPage` link's query serves the page before the current one. |
| Products.ServesLinkedPage | api/routes/products.js:21-29 | Requesting an existing page by its decimal number serves that page. |
| Products.LinkLeadsTo | api/routes/products.js:21-58 | The query a page link carries, for any existing page, serves exactly that page. |
| Products.TenthOfEachPageNeverListed | api/routes/products.js:31-33 | The product at any position 10k+9 is outside the slice of every page, so no request ever lists it. |
| Products.TenProductsShowNine | api/routes/products.js:27-33 | With ten products, every request lists only the first nine. |
| Products.PaginateCorrected | api/routes/products.js:31-33 | With `end = start + 10`, a page shows at most 10 products; the count, totalPages and page range are as above. |
| Products.CorrectedPageContents | api/routes/products.js:27-33 | With the corrected slice, asking for existing page n serves page n with the products at positions (n-1)*10 up to (n-1)*10+10, clipped to the list, and that window is non-empty. |
| Products.CorrectedListsEveryProduct | api/routes/products.js:27-33 | With the corrected slice, product i is entry i mod 10 of page i/10+1, and requesting that page serves it. |
| Products.CorrectedPagesAreDisjoint | api/routes/products.js:31-33 | With the corrected slice, a product falls in the window of page i/10+1 only. |
| Products.ListProducts | api/routes/products.js:19-75 | The query's error is forwarded unchanged. Otherwise the answer is the listing as written: it reports the number of documents found and page size 10, and shows at most nine products. |
| Products.ListProductsShowsWindow | api/routes/products.js:19-67 | The route shows the products at positions (page-1)*10 up to, but not including, (page-1)*10+9 of those found, clipped to the list. |
| Products.ListProductsTenShowNine | api/routes/products.js:19-67 | When the query finds ten products, the route answers with the first nine, whatever page is asked for. |
| Products.ListProductsCorrected | api/routes/products.js:31-33 | With `end = start + PAGESIZE`, the route forwards the query's error, otherwise reports the count and page size 10 and shows at most ten products. |
| Products.CreateProduct | api/routes/products.js:83-117 | An anonymous caller is always refused. Refusals are 'Authorization' errors: 403 for an authenticated caller, 401 for an anonymous one. |
| Products.CreateFollowsOwnership | api/routes/products.js:86 | Creation is allowed exactly for an administrator, or for a caller who names themself as the seller. |
| Products.PatchProduct | api/routes/products.js:152-191 | Anonymous gives 401 'request is unauthenticated'. A missing product gives 404 'InvalidPath' before any permission check, and a failed lookup forwards its error. On a found product the request is allowed exactly when the token's `priviledge` claim is 'ADMIN', or the caller is the product's seller and the body keeps that seller; a refusal there is 403. |
| Products.PatchIgnoresAccessLevel | api/routes/products.js:166-169 | For every token the system issues, a patch is allowed exactly for the seller, and only if the body leaves the seller alone or names the caller. The ADMIN access level grants nothing. |
| Products.AdminPatchRefused | api/routes/products.js:166-176 | An administrator's token patching someone else's product is refused with 403. |
| Products.PatchProductCorrected | api/routes/products.js:166-169 | With the administrator test reading `access_level`, the 401, 404, forwarded-error and 403 outcomes are as above. |
| Products.PatchCorrectedFollowsOwnership | api/routes/products.js:166-169 | The corrected patch is allowed exactly for an administrator, or for the seller when the body keeps the caller as seller. |
| Products.PutProduct | api/routes/products.js:198-235 | Anonymous gives 401, with the name misspelt 'Athorization'. A validation error or a failed lookup is forwarded. A non-administrator replacing a product that does not exist fails with a TypeError that carries no status; an administrator may create it. |
| Products.PutFollowsOwnership | api/routes/products.js:210-220 | Replacing an existing product is allowed exactly for an administrator, or for its seller when the new document keeps them as seller. Every refusal is 403. |
| Products.DeleteProduct | api/routes/products.js:243-284 | Anonymous gives 401, a missing product 404 before any permission check, and a failed lookup forwards its error. Otherwise deletion is allowed exactly for an administrator or the seller, and refused with 403. |
| Products.AnonymousWritesRefused | api/routes/products.js:107-283 | Create, patch, replace and delete all refuse an anonymous caller with 401, whatever the body and the stored document. |
| Users.CreateUser | api/routes/users.js:8-49 | A missing or empty privilege gives 400, checked before the password, which also gives 400. Then creation is allowed exactly when the caller's level is ADMIN or the upper-cased privilege is STANDARD or PRO. Every other request gets 403 'Authorization'. |
| Users.GuestSignUp | api/routes/users.js:11-30 | An anonymous caller acts as GUEST: it can open STANDARD and PRO accounts, in any letter case, and is refused an ADMIN account with 403. |
| Users.AdminCreatesAnyAccount | api/routes/users.js:30 | An administrator may open an account of any privilege once the body names one and a password. |
| Users.MissingPriviledgeBeforePermission | api/routes/users.js:18-23 | A body without a privilege is refused with 400 whoever asks, administrators included. |
| Users.Login | api/routes/users.js:51-78 | Without both username and password: 400. A failed lookup is forwarded. An unknown user or a wrong password gives 401. Success happens exactly for a found account whose password validates. The token payload is then the account's id, name and privilege. |
| Users.LoginTokenAuthenticates | api/routes/users.js:63-65 | The token of a successful login authenticates its holder as the account that logged in. The holder is an administrator exactly when the account's privilege is ADMIN. |
| Users.FetchUser | api/routes/users.js:80-105 | Reading an account is allowed exactly for its holder or an administrator. Otherwise the refusal is 401 when anonymous and 403 when authenticated. |
| Users.FetchUserIsPrivate | api/routes/users.js:81 | A caller who is not an administrator can read its own account and no other. |
| Items.PaddedTypeAccepted | api/models/item.js:16-37 | The type is trimmed before it is checked against the fifteen listed types, so leading whitespace never changes whether it is accepted. |
| Items.MatchesDigitsIff | api/models/item.js:125-129 | The digit matcher accepts exactly the strings of the given length made only of 0-9. |
| Items.UpcShape | api/models/item.js:125-129 | A UPC is valid exactly when it is twelve characters long and every character is a decimal digit. |
| Items.ApparelSizeError | api/models/item.js:136-172 | A type naming no apparel never errs. Apparel without a size errs "Size is required". Missing bottoms for a top or bottom type gives the bottoms message. Otherwise missing shoes for a shoe type gives the shoes message. Every error is a 400 'ValidationError', and no error happens exactly when the size meets the rule as written. |
| Items.ApparelSizeErrorCorrected | api/models/item.js:149-153 | With tops checked for shirts and jackets, the corrected hook is silent exactly for non-apparel, or for a size with shoes, tops and bottoms wherever the type needs them. |
| Items.HooksAgreeOffTops | api/models/item.js:143-160 | For a type that is neither a shirt nor a jacket, the hook as written and the corrected hook give the same answer. |
| Items.ShirtsAreTops | api/models/item.js:137-160 | "tennis shirts" is apparel and a top, and names neither shoes nor a bottom. |
| Items.ShirtWithTopSizeRefused | api/models/item.js:149-153 | A shirt described by a tops size alone is refused by the hook as written, with the bottoms message, and accepted by the corrected hook. |
| App.Normalize | app.js:73-74 | A missing or zero status code becomes 500 and a missing or empty status becomes 'error'. Present values are kept, and nothing else changes. |
| App.NormalizeIdempotent | app.js:73-74 | Defaulting an already defaulted error changes nothing. |
| App.Dispatch | app.js:81-89 | Production translates a 'CastError' first, then an error with code 11000, then a 'ValidationError'. Anything else is passed on unchanged. |
| App.SendErrorProd | app.js:23-38 | An operational error is sent with its own status code, status and message. Any other error becomes 500 'error' "Something went very wrong!". |
| App.HandleError | app.js:72-92 | No reply is sent exactly when the environment is neither development nor production. Development sends the defaulted error whole; production sends the translated, defaulted error through `sendErrorProd`. |
| App.DevelopmentReplyIsComplete | app.js:72-77 | In development the reply always has a non-zero status code and a non-empty status, and it carries the error's own message. |
| App.RouteErrorsHiddenInProduction | app.js:78-91 | Every error a route builds itself reaches a production client as the generic 500, whatever status it chose, unless its name routes it to a translator. |
| App.RateLimitReplyByEnvironment | app.js:72-92 | A refused request is answered 500 in production and 429 in development. |
| App.OperationalErrorShownInProduction | app.js:23-29 | An operational error with its own status code and status that no translator claims reaches a production client unchanged. |
| App.Front | app.js:45-60 | A rate-limit refusal goes to the error handler. An admitted OPTIONS request is answered 200 with `{}`. Exactly the admitted non-OPTIONS requests reach the routers. |
| App.PreflightNeverRouted | app.js:54-57 | A preflight never reaches a router. It is answered 200 with `{}` exactly when the rate limiter admits it, so preflights spend tokens too. |

## Left out

- The Redis store is reduced to one read result per request and the record written back. Left out with it:
  - the race between the unlocked read and the unawaited write;
  - failures of that write;
  - the string form in which Redis returns `last`.
- RateLimiting.RateLimit: `Date.now()` is two integer parameters, the clock reading taken while loading and the one taken after. Tokens are exact rationals instead of IEEE doubles parsed back with `parseFloat`, and the refill rate is the exact value 0.0005 of 30/60000 (see RateLimiting.RefreshRateIsWindowRate).
- RateLimiting.Serve: assumes a store that never fails and both clock readings equal.
- JWT signing, verification and expiry are the function parameters `sign` and `verify`. Password hashing (pbkdf2) is the parameter `validatePassword`.
- Every database query is an input rather than an operation: `find`, `findById`, `findOne`, `save`, `validate`, `findByIdAndUpdate`, `replaceOne` and `deleteMany`. The write that follows an `Allow` is not modelled. Neither are the 201/200 response bodies of the write routes.
- Schema enforcement by the database library is not modelled beyond what a decision reads. The exceptions are the item type list, the UPC pattern, and the upper-casing of a new account's privilege, which the create decision reads.
- Items.ApparelSizeError: the hook is registered as `post('validate', function(next))`. How the database library invokes a one-parameter post hook, and what `next` is bound to there, is not modelled. The model returns the error the hook means to pass on.
- The item `year` maximum is computed from the current date and is not modelled.
- The routes of api/routes/items.js (file upload, file system, existence lookups) are not modelled. Neither is the single-product read route of the products router.
- lib/custom_error.js is not part of this model. Its error translators are the parameters `Handlers`, and the catch-all invalid-path route that uses one of them is not modelled.
- server.js (process start-up and signals) and lib/mongo.js (connection set-up, the `NoCastString` type) are not modelled.
- CORS header values, the body parsers and request logging are not modelled. The development reply leaves out the stack trace.
- Text.ToUpper: upper-cases ASCII letters only, not the full Unicode case mapping of `toUpperCase`.
- Products.PageParam: a repeated `page` query parameter arrives as an array; that case is not modelled, and the query is a single optional string.
- Users.CreateUser: body fields are optional strings. Truthiness of non-string JSON values (numbers, booleans) sent in their place is not modelled.
- RateLimiting.RateLimit: a refusal carries no retry hint, only the plain 429 error; there is no fail-open or fail-closed option, because a store read error goes to the error handler; and the refill is capped only from above (see RateLimiting.ClockRegressionDrivesTokensNegative).

## Findings

| source | as written | input that shows it | evidently intended | confidence | as-written member | corrected member |
|---|---|---|---|---|---|---|
| api/routes/products.js:31-33 | `end = start + PAGESIZE - 1`, and `slice` excludes `end`, so a page holds at most 9 products | ten products, any `page` query: only the first nine are listed, and the tenth is on no page | `end = start + PAGESIZE`, so each page holds ten products and every product is listed once | high (not executed) | Products.TenthOfEachPageNeverListed | Products.CorrectedListsEveryProduct |
| api/routes/products.js:166-169 | the administrator test reads `req.user.priviledge`, a claim the issued tokens never carry | an ADMIN token patching a product sold by someone else is refused with 403 | read `req.user.access_level`, as create, replace and delete do | high (not executed) | Products.AdminPatchRefused | Products.PatchCorrectedFollowsOwnership |
| api/models/item.js:149-153 | shirts and jackets are checked for `size.bottoms`, with the bottoms message | "tennis shirts" with a size holding only `tops` is refused with 400 | check `size.tops` for shirts and jackets. The corrected hook's message for this case ("An object representing tops is required to describe the apparel size") is this model's wording | medium (not executed) | Items.ShirtWithTopSizeRefused | Items.ApparelSizeErrorCorrected |

=== FILE: app.dfy ===
/** The application's own middleware: the preflight answer in front of the
    routers and the final error handler. The database-error helpers
    (`handleCastErrorDB` and the others) live in lib/custom_error.js, which
    is not part of this model: they are the parameters `Handlers`. */
module App {
  import opened Errors
  import RateLimiting

  /** `process.env.NODE_ENV`. */
  datatype Env = Development | Production | OtherEnv

  /** The JSON bodies the application sends itself. `DevBody` leaves out
      the stack trace. */
  datatype Body =
    | DevBody(status: Option<string>, error: Error, message: string)
    | ProdBody(status: Option<string>, message: string)
    | EmptyObject

  /** `res.status(statusCode).json(body)`; the status is whatever the error
      carried, possibly `undefined`. */
  datatype Reply = Reply(statusCode: Option<int>, body: Body)

  const GenericMessage := "Something went very wrong!"

  /** `err.statusCode || 500` and `err.status || 'error'`: a missing or zero
      status code and a missing or empty status are replaced. */
  function Normalize(err: Error): (r: Error)
    ensures r.statusCode.Some? && r.statusCode.value != 0
    ensures Truthy(r.status)
    ensures err.statusCode.Some? && err.statusCode.value != 0 ==> r.statusCode == err.statusCode
    ensures (err.statusCode.None? || err.statusCode.value == 0) ==> r.statusCode == Some(500)
    ensures Truthy(err.status) ==> r.status == err.status
    ensures !Truthy(err.status) ==> r.status == Some("error")
    ensures r.name == err.name && r.message == err.message && r.code == err.code
    ensures r.isOperational == err.isOperational
  {
    err.(
      statusCode := if err.statusCode.Some? && err.statusCode.value != 0 then err.statusCode else Some(500),
      status := if Truthy(err.status) then err.status else Some("error"))
  }

  /** Defaulting twice is defaulting once. */
  lemma NormalizeIdempotent(err: Error)
    ensures Normalize(Normalize(err)) == Normalize(err)
  {
  }

  /** The database-error translators, one per recognised kind. */
  datatype Handlers = Handlers(cast: Error -> Error, duplicate: Error -> Error, validation: Error -> Error)

  /** The production branch's choice of translator: a cast error first, then
      a duplicate key (code 11000), then a validation error; anything else
      is passed on unchanged. */
  function Dispatch(err: Error, h: Handlers): (r: Error)
    ensures err.name == "CastError" ==> r == h.cast(err)
    ensures err.name != "CastError" && err.code == Some(11000) ==> r == h.duplicate(err)
    ensures err.name != "CastError" && err.code != Some(11000) && err.name == "ValidationError" ==>
      r == h.validation(err)
    ensures err.name !in {"CastError", "ValidationError"} && err.code != Some(11000) ==> r == err
  {
    if err.name == "CastError" then h.cast(err)
    else if err.code == Some(11000) then h.duplicate(err)
    else if err.name == "ValidationError" then h.validation(err)
    else err
  }

  /** `sendErrorProd`: an operational error shows its own status code,
      status and message; any other error is reported as a bare 500. */
  function SendErrorProd(err: Error): (r: Reply)
    ensures err.isOperational ==> r == Reply(err.statusCode, ProdBody(err.status, err.message))
    ensures !err.isOperational ==> r == Reply(Some(500), ProdBody(Some("error"), GenericMessage))
    ensures r.body.ProdBody? && (r.body.message == err.message || r.body.message == GenericMessage)
  {
    if err.isOperational then Reply(err.statusCode, ProdBody(err.status, err.message))
    else Reply(Some(500), ProdBody(Some("error"), GenericMessage))
  }

  /** The final error handler. In development the defaulted error is sent
      whole; in production it is translated and then sent by
      `SendErrorProd`; in any other environment no reply is sent. */
  function HandleError(env: Env, err: Error, h: Handlers): (r: Option<Reply>)
    ensures r.None? <==> env.OtherEnv?
    ensures env.Development? ==>
      var e := Normalize(err);
      r == Some(Reply(e.statusCode, DevBody(e.status, e, e.message)))
    ensures env.Production? ==> r == Some(SendErrorProd(Dispatch(Normalize(err), h)))
  {
    var e := Normalize(err);
    match env
    case Development => Some(Reply(e.statusCode, DevBody(e.status, e, e.message)))
    case Production => Some(SendErrorProd(Dispatch(e, h)))
    case OtherEnv => None
  }

  /** In development the reply always carries a status code and a
      non-empty status, the error's own when it has them. */
  lemma DevelopmentReplyIsComplete(err: Error, h: Handlers)
    ensures var r := HandleError(Development, err, h).value;
      && r.statusCode.Some? && r.statusCode.value != 0
      && r.body.DevBody? && Truthy(r.body.status)
      && r.body.message == err.message
  {
  }

  /** Every error a route handler raises itself (`new Error` with a name
      and a status code, never operational) reaches a production client as
      the generic 500, whatever status code the handler chose, unless its
      name sends it to a database-error translator. */
  lemma RouteErrorsHiddenInProduction(name: string, message: string, code: int, h: Handlers)
    requires name != "CastError" && name != "ValidationError"
    ensures HandleError(Production, Raise(name, message, code), h)
      == Some(Reply(Some(500), ProdBody(Some("error"), GenericMessage)))
  {
  }

  /** In particular a refused request reaches a production client as 500,
      not as 429, while development shows the 429. */
  lemma RateLimitReplyByEnvironment(h: Handlers)
    ensures HandleError(Production, RateLimiting.RateLimitError, h).value.statusCode == Some(500)
    ensures HandleError(Development, RateLimiting.RateLimitError, h).value.statusCode == Some(429)
  {
    RouteErrorsHiddenInProduction("Rate Limiting", "request exceeds rate limit for subscription", 429, h);
  }

  /** An operational error with its own status code and status survives
      production unchanged when no translator applies to it. */
  lemma OperationalErrorShownInProduction(err: Error, h: Handlers)
    requires err.isOperational
    requires err.name !in {"CastError", "ValidationError"} && err.code != Some(11000)
    requires err.statusCode.Some? && err.statusCode.value != 0 && Truthy(err.status)
    ensures HandleError(Production, err, h) == Some(Reply(err.statusCode, ProdBody(err.status, err.message)))
  {
  }

  /** Where a request goes after the middleware in front of the routers. */
  datatype Stage = Answered(reply: Reply) | ToRouters | ToErrorHandler(error: Error)

  /** The middleware chain up to the routers: the rate limiter runs first;
      then an OPTIONS request is answered 200 with `{}`; anything else goes
      on to the routers. */
  function Front(verb: string, limit: Decision): (s: Stage)
    ensures limit.Deny? ==> s == ToErrorHandler(limit.error)
    ensures limit.Allow? && verb == "OPTIONS" ==> s == Answered(Reply(Some(200), EmptyObject))
    ensures s.ToRouters? <==> limit.Allow? && verb != "OPTIONS"
  {
    match limit
    case Deny(e) => ToErrorHandler(e)
    case Allow => if verb == "OPTIONS" then Answered(Reply(Some(200), EmptyObject)) else ToRouters
  }

  /** A preflight never reaches a router; it is answered 200 exactly when
      the rate limiter admits it, and otherwise goes to the error handler
      like any refused request: preflights spend tokens too. */
  lemma PreflightNeverRouted(read: RateLimiting.StoreRead, loadClock: int, now: int)
    ensures var s := Front("OPTIONS", RateLimiting.RateLimit(read, loadClock, now).decision);
      && !s.ToRouters?
      && (s.Answered? <==> RateLimiting.RateLimit(read, loadClock, now).decision.Allow?)
      && (s.Answered? ==> s.reply == Reply(Some(200), EmptyObject))
  {
  }
}

=== FILE: authentication.dfy ===
/** Bearer-token authentication. Signing and verifying a JSON Web Token are
    cryptographic operations outside the model: `sign` and `verify` are
    parameters, and a verification that throws is `verify(t) == None`. */
module Authentication {
  import opened Errors
  import opened Text

  /** The claims carried by a token. `priviledge` is not a claim this
      system issues; it is kept because one handler reads it. */
  datatype Payload = Payload(
    id: string,
    username: string,
    accessLevel: string,
    priviledge: Option<string>)

  predicate IsAdmin(p: Payload) {
    p.accessLevel == "ADMIN"
  }

  /** `generateAuthToken(id, username, priviledge)`: the payload handed to
      the signer. The account's privilege travels as `access_level`. */
  function GenerateAuthToken(id: string, username: string, priviledge: string): (p: Payload)
    ensures p.id == id && p.username == username
    ensures p.accessLevel == priviledge
    ensures p.priviledge.None?
    ensures IsAdmin(p) <==> priviledge == "ADMIN"
  {
    Payload(id, username, priviledge, None)
  }

  /** `req.get('Authorization') || ''`. */
  function HeaderText(header: Option<string>): string {
    match header
    case None => ""
    case Some(h) => h
  }

  /** The token of a `Bearer <token>` header: the second space-separated
      field, when the first field is exactly `Bearer`. A header of just
      `Bearer` yields no token. */
  function ExtractToken(header: Option<string>): (t: Option<string>)
    ensures t.Some? ==> ' ' !in t.value
    ensures header.None? ==> t.None?
  {
    var parts := Split(HeaderText(header), ' ');
    if parts[0] == "Bearer" && |parts| > 1 then Some(parts[1]) else None
  }

  /** `requireAuthentication`: never refuses a request. It sets `req.user`
      to the verified payload, or to `null` when there is no token or the
      token does not verify. */
  function RequireAuthentication(header: Option<string>, verify: string -> Option<Payload>): (user: Option<Payload>)
    ensures user.Some? ==> ExtractToken(header).Some? && user == verify(ExtractToken(header).value)
    ensures ExtractToken(header).Some? ==> user == verify(ExtractToken(header).value)
  {
    match ExtractToken(header)
    case None => None
    case Some(t) => verify(t)
  }

  /** A header whose text is `Bearer`, one space, a space-free token, and
      then nothing or more space-separated fields. */
  predicate BearerHeader(h: string, t: string) {
    && ' ' !in t
    && |h| >= 7 + |t|
    && h[..7] == "Bearer "
    && h[7..7 + |t|] == t
    && (|h| == 7 + |t| || h[7 + |t|] == ' ')
  }

  /** A token is extracted exactly from a header of the `Bearer <token>`
      shape, and it is the field right after `Bearer`. */
  lemma ExtractTokenIff(header: Option<string>, t: string)
    ensures ExtractToken(header) == Some(t) <==> header.Some? && BearerHeader(header.value, t)
  {
    var h := HeaderText(header);
    if header.Some? && BearerHeader(h, t) {
      BearerHeaderSplits(h, t);
    }
    if ExtractToken(header) == Some(t) {
      ExtractedTokenShape(h);
    }
  }

  lemma BearerHeaderSplits(h: string, t: string)
    requires BearerHeader(h, t)
    ensures |Split(h, ' ')| > 1
    ensures Split(h, ' ')[0] == "Bearer" && Split(h, ' ')[1] == t
  {
    SplitAfterBearer(h);
    FirstFieldIsToken(h[7..], t);
  }

  /** A header starting `Bearer ` splits into `Bearer` and the fields of the rest. */
  lemma SplitAfterBearer(h: string)
    requires |h| >= 7 && h[..7] == "Bearer "
    ensures Split(h, ' ') == ["Bearer"] + Split(h[7..], ' ')
  {
    var head := h[..6];
    assert head == h[..7][..6] == "Bearer";
    assert h[6] == h[..7][6] == ' ';
    assert h == head + [' '] + h[7..];
    SplitCons(head, ' ', h[7..]);
  }

  /** A space-free prefix followed by nothing or a space is the first field. */
  lemma FirstFieldIsToken(tail: string, t: string)
    requires ' ' !in t
    requires |tail| >= |t| && tail[..|t|] == t
    requires |tail| == |t| || tail[|t|] == ' '
    ensures Split(tail, ' ')[0] == t
  {
    FirstSeparatorAt(tail, ' ', |t|);
  }

  lemma ExtractedTokenShape(h: string)
    requires ExtractToken(Some(h)).Some?
    ensures BearerHeader(h, ExtractToken(Some(h)).value)
  {
    BearerPrefix(h);
    SplitAfterBearer(h);
    var tail := h[7..];
    var t := Split(tail, ' ')[0];
    assert Split(h, ' ')[1] == t;
    assert ExtractToken(Some(h)).value == t;
    FirstFieldShape(tail);
    BearerHeaderOfParts(h, t);
  }

  /** `Bearer `, then a first field `t` of the rest: a bearer header for `t`. */
  lemma BearerHeaderOfParts(h: string, t: string)
    requires |h| >= 7 && h[..7] == "Bearer "
    requires ' ' !in t && |h[7..]| >= |t| && h[7..][..|t|] == t
    requires |h[7..]| == |t| || h[7..][|t|] == ' '
    ensures BearerHeader(h, t)
  {
    assert h[7..7 + |t|] == h[7..][..|t|];
  }

  /** A header whose first field is `Bearer` and which has a second field
      starts with `Bearer` and one space. */
  lemma BearerPrefix(h: string)
    requires |Split(h, ' ')| > 1 && Split(h, ' ')[0] == "Bearer"
    ensures |h| >= 7 && h[..7] == "Bearer "
  {
    var i := IndexOf(h, ' ');
    assert h[..i] == "Bearer";
    assert h[..7] == h[..6] + [h[6]];
  }

  /** The first field is a space-free prefix ending at a space or the end. */
  lemma FirstFieldShape(s: string)
    ensures var t := Split(s, ' ')[0];
      && ' ' !in t && |t| <= |s| && s[..|t|] == t
      && (|s| == |t| || s[|t|] == ' ')
  {
  }

  /** A token issued for `p` and sent back as `Bearer <token>` authenticates
      its holder as exactly `p`, provided the verifier accepts what the
      signer produced and signed tokens contain no space. */
  lemma IssuedTokenAuthenticates(p: Payload, sign: Payload -> string, verify: string -> Option<Payload>)
    requires ' ' !in sign(p)
    requires verify(sign(p)) == Some(p)
    ensures RequireAuthentication(Some("Bearer " + sign(p)), verify) == Some(p)
  {
    var t := sign(p);
    var h := "Bearer " + t;
    assert h[..7] == "Bearer " && h[7..7 + |t|] == t;
    assert BearerHeader(h, t);
    ExtractTokenIff(Some(h), t);
  }

  /** Without a header, or with any header that is not a bearer header, the
      request goes on anonymously. */
  lemma NoBearerIsAnonymous(header: Option<string>, verify: string -> Option<Payload>)
    requires header.None? || forall t :: !BearerHeader(header.value, t)
    ensures RequireAuthentication(header, verify) == None
  {
    if ExtractToken(header).Some? {
      ExtractTokenIff(header, ExtractToken(header).value);
    }
  }
}

=== FILE: errors.dfy ===
/** JavaScript values and the error objects the request handlers pass to `next(err)`. */
module Errors {

  /** A JavaScript value that may be `undefined` or `null`. */
  datatype Option<+T> = None | Some(value: T)

  /** JavaScript truthiness of an optional string: absent and "" are falsy. */
  predicate Truthy(s: Option<string>) {
    s.Some? && s.value != ""
  }

  /** An `Error` object as the handlers build it: `new Error(message)` with
      `name` and `statusCode` assigned afterwards. `status`, `code` and
      `isOperational` are only ever set by the database layer or by the
      error helpers, never by the modelled handlers. */
  datatype Error = Error(
    name: string,
    message: string,
    statusCode: Option<int>,
    status: Option<string>,
    code: Option<int>,
    isOperational: bool)

  /** `const err = new Error(message); err.name = name; err.statusCode = code;` */
  function Raise(name: string, message: string, statusCode: int): Error {
    Error(name, message, Some(statusCode), None, None, false)
  }

  /** What a middleware does with a request: call `next()` or `next(err)`. */
  datatype Decision = Allow | Deny(error: Error)

  /** A decision that also carries a value when it succeeds. */
  datatype Outcome<+T> = Ok(value: T) | Fail(error: Error)

  /** The result of a `findById`/`findOne` query: a document, `null`, or a
      rejected promise. */
  datatype Lookup<+T> = Found(doc: T) | Missing | Failed(error: Error)
}

=== FILE: items.dfy ===
/** The item schema's own rules: the closed list of item types, the UPC
    pattern, and the post-validation hook that demands a size record for
    apparel. The other schema paths (owner, listing, colour, brand, year,
    image) are plain required/optional fields enforced by the database
    library and are not modelled. */
module Items {
  import opened Errors
  import opened Text

  // ---------------------------------------------------------------------
  // Item type and UPC
  // ---------------------------------------------------------------------

  /** The values the `type` path admits, after trimming. */
  const ItemTypes: seq<string> := [
    "tennis racquets", "tennis balls", "tennis strings", "tennis grips",
    "tennis dampener", "tennis stringer", "tennis ball machines", "tennis shoes",
    "tennis shorts", "tennis pants", "tennis skirts", "tennis headbands",
    "tennis jackets", "tennis shirts", "tennis hats"]

  /** The `type` path: the value is trimmed, then must be one of `ItemTypes`. */
  predicate ValidType(raw: string) {
    Trim(raw) in ItemTypes
  }

  /** Leading whitespace never changes whether a type is accepted. */
  lemma PaddedTypeAccepted(pad: string, t: string)
    requires AllWhiteSpace(pad)
    ensures ValidType(pad + t) <==> ValidType(t)
  {
    TrimStartSkipsPadding(pad, t);
  }

  /** `/^\d{12}$/` read as a matcher: `s` is exactly `n` decimal digits. */
  predicate MatchesDigits(s: string, n: nat)
    decreases n
  {
    if n == 0 then s == []
    else |s| > 0 && IsDecimalDigit(s[0]) && MatchesDigits(s[1..], n - 1)
  }

  /** The `upc` path: a UPC is a twelve-digit code. */
  predicate ValidUpc(upc: string) {
    MatchesDigits(upc, 12)
  }

  /** The matcher accepts exactly the strings of length `n` made only of
      the digits 0 to 9. */
  lemma {:induction false} MatchesDigitsIff(s: string, n: nat)
    ensures MatchesDigits(s, n) <==> |s| == n && forall i :: 0 <= i < |s| ==> IsDecimalDigit(s[i])
    decreases n
  {
    if n > 0 && |s| > 0 {
      MatchesDigitsIff(s[1..], n - 1);
      assert forall i :: 1 <= i < |s| ==> s[i] == s[1..][i - 1];
    }
  }

  /** A UPC is exactly twelve characters, all of them digits; a leading
      zero is kept, unlike a number. */
  lemma UpcShape(upc: string)
    ensures ValidUpc(upc) <==> |upc| == 12 && forall i :: 0 <= i < |upc| ==> IsDecimalDigit(upc[i])
  {
    MatchesDigitsIff(upc, 12);
  }

  // ---------------------------------------------------------------------
  // Apparel size hook
  // ---------------------------------------------------------------------

  datatype ShoeSize = ShoeSize(us: real, uk: real, europe: real)
  datatype TopSize = TopSize(neck: real, chest: Option<real>, sleeve: Option<real>, original: string)
  datatype BottomSize = BottomSize(waist: Option<real>, seat: Option<real>, original: string)

  /** The optional `size` sub-document; each part may be absent. */
  datatype Size = Size(shoes: Option<ShoeSize>, tops: Option<TopSize>, bottoms: Option<BottomSize>)

  /** The words that make an item type apparel. */
  const Apparels: seq<string> := ["shoes", "shorts", "pants", "skirts", "shirts", "jackets"]

  /** `apparels.some(w => type.includes(w))`. */
  predicate IsApparel(t: string) {
    exists k :: 0 <= k < |Apparels| && Contains(t, Apparels[k])
  }

  predicate NeedsShoes(t: string) {
    Contains(t, "shoes")
  }

  predicate IsTop(t: string) {
    Contains(t, "shirts") || Contains(t, "jackets")
  }

  predicate IsBottom(t: string) {
    Contains(t, "shorts") || Contains(t, "pants") || Contains(t, "skirts")
  }

  const NoSizeMessage := "An object representing Size is required because the item is an apparel"
  const NoShoesMessage := "An object representing shoes is required to describe the apparel size"
  const NoBottomsMessage := "An object representing bottoms is required to describe the apparel size"

  /** Every error the hook raises: a `ValidationError` with status 400. */
  function HookError(message: string): Error {
    Raise("ValidationError", message, 400)
  }

  /** What the hook, as written, demands of the size record of an apparel:
      shoes for shoes, and bottoms for tops as well as for bottoms. */
  predicate SizedAsWritten(t: string, s: Size) {
    && (NeedsShoes(t) ==> s.shoes.Some?)
    && (IsTop(t) ==> s.bottoms.Some?)
    && (IsBottom(t) ==> s.bottoms.Some?)
  }

  /** The error the post-validation hook passes on, if any. The three size
      checks run in turn and each failing one overwrites the message, so
      the last failing check decides it. */
  function ApparelSizeError(t: string, size: Option<Size>): (e: Option<Error>)
    ensures !IsApparel(t) ==> e.None?
    ensures IsApparel(t) && size.None? ==> e == Some(HookError(NoSizeMessage))
    ensures e.Some? ==> e.value.name == "ValidationError" && e.value.statusCode == Some(400)
    ensures e.None? <==> !IsApparel(t) || (size.Some? && SizedAsWritten(t, size.value))
    ensures IsApparel(t) && size.Some? && (IsTop(t) || IsBottom(t)) && size.value.bottoms.None? ==>
      e == Some(HookError(NoBottomsMessage))
    ensures
      (&& IsApparel(t) && size.Some? && NeedsShoes(t) && size.value.shoes.None?
       && !((IsTop(t) || IsBottom(t)) && size.value.bottoms.None?)) ==>
      e == Some(HookError(NoShoesMessage))
  {
    var message: Option<string> :=
      if !IsApparel(t) then None
      else if size.None? then Some(NoSizeMessage)
      else
        var s := size.value;
        var afterShoes := if NeedsShoes(t) && s.shoes.None? then Some(NoShoesMessage) else None;
        var afterTops := if IsTop(t) && s.bottoms.None? then Some(NoBottomsMessage) else afterShoes;
        if IsBottom(t) && s.bottoms.None? then Some(NoBottomsMessage) else afterTops;
    match message
    case None => None
    case Some(m) => Some(HookError(m))
  }

  /** What the hook evidently means to demand: tops for shirts and
      jackets, bottoms for shorts, pants and skirts, shoes for shoes. */
  predicate Sized(t: string, s: Size) {
    && (NeedsShoes(t) ==> s.shoes.Some?)
    && (IsTop(t) ==> s.tops.Some?)
    && (IsBottom(t) ==> s.bottoms.Some?)
  }

  /** The hook with the tops check reading `size.tops`. */
  function ApparelSizeErrorCorrected(t: string, size: Option<Size>): (e: Option<Error>)
    ensures e.Some? ==> e.value.name == "ValidationError" && e.value.statusCode == Some(400)
    ensures e.None? <==> !IsApparel(t) || (size.Some? && Sized(t, size.value))
    ensures IsApparel(t) && size.None? ==> e == Some(HookError(NoSizeMessage))
  {
    var message: Option<string> :=
      if !IsApparel(t) then None
      else if size.None? then Some(NoSizeMessage)
      else
        var s := size.value;
        var afterShoes := if NeedsShoes(t) && s.shoes.None? then Some(NoShoesMessage) else None;
        var afterTops := if IsTop(t) && s.tops.None? then Some(NoTopsMessage) else afterShoes;
        if IsBottom(t) && s.bottoms.None? then Some(NoBottomsMessage) else afterTops;
    match message
    case None => None
    case Some(m) => Some(HookError(m))
  }

  const NoTopsMessage := "An object representing tops is required to describe the apparel size"

  /** The two hooks differ only on tops: for a type that is neither a shirt
      nor a jacket they raise the same error, or none. */
  lemma HooksAgreeOffTops(t: string, size: Option<Size>)
    requires !IsTop(t)
    ensures ApparelSizeError(t, size) == ApparelSizeErrorCorrected(t, size)
  {
  }

  /** Every letter of a contained word occurs in the text. */
  lemma ContainedLetters(s: string, w: string, c: char)
    requires Contains(s, w) && c in w
    ensures c in s
  {
    ContainsIff(s, w);
    var i :| OccursAt(s, w, i);
    var j :| 0 <= j < |w| && w[j] == c;
    assert s[i..i + |w|][j] == s[i + j];
  }

  /** A word is not found in a text that lacks one of its letters. */
  lemma MissingLetterNotContained(s: string, w: string, c: char)
    requires c in w && c !in s
    ensures !Contains(s, w)
  {
    if Contains(s, w) {
      ContainedLetters(s, w, c);
    }
  }

  /** A word found at a known position is contained. */
  lemma ContainedAt(s: string, w: string, i: nat)
    requires OccursAt(s, w, i)
    ensures Contains(s, w)
  {
    ContainsIff(s, w);
  }

  /** "tennis shirts" is a top and neither shoes nor a bottom. */
  lemma ShirtsAreTops()
    ensures IsApparel("tennis shirts") && IsTop("tennis shirts")
    ensures !NeedsShoes("tennis shirts") && !IsBottom("tennis shirts")
  {
    ShirtsApparelTop();
    ShirtsNamesNoOtherApparel();
  }

  lemma ShirtsApparelTop()
    ensures IsApparel("tennis shirts") && IsTop("tennis shirts")
  {
    ShirtsNamesShirts();
    ApparelWord("tennis shirts", 4);
  }

  /** A type containing one of the apparel words is apparel. */
  lemma ApparelWord(t: string, k: int)
    requires 0 <= k < |Apparels| && Contains(t, Apparels[k])
    ensures IsApparel(t)
  {
  }

  lemma ShirtsNamesShirts()
    ensures Contains("tennis shirts", "shirts")
  {
    var t := "tennis shirts";
    assert t[7..13] == "shirts";
    ContainedAt(t, "shirts", 7);
  }

  lemma ShirtsNamesNoOtherApparel()
    ensures !Contains("tennis shirts", "shoes") && !Contains("tennis shirts", "shorts")
    ensures !Contains("tennis shirts", "pants") && !Contains("tennis shirts", "skirts")
  {
    ShirtsLacksLetters();
    MissingLetterNotContained("tennis shirts", "shoes", 'o');
    MissingLetterNotContained("tennis shirts", "shorts", 'o');
    MissingLetterNotContained("tennis shirts", "pants", 'p');
    MissingLetterNotContained("tennis shirts", "skirts", 'k');
  }

  lemma ShirtsLacksLetters()
    ensures 'o' !in "tennis shirts" && 'p' !in "tennis shirts" && 'k' !in "tennis shirts"
    ensures 'o' in "shoes" && 'o' in "shorts" && 'p' in "pants" && 'k' in "skirts"
  {
    assert "shoes"[2] == 'o' && "shorts"[2] == 'o' && "pants"[0] == 'p' && "skirts"[1] == 'k';
  }

  /** A shirt described by its top size alone is refused by the hook as
      written, which asks for a bottoms size, and accepted by the corrected
      hook. */
  lemma ShirtWithTopSizeRefused(top: TopSize)
    ensures ApparelSizeError("tennis shirts", Some(Size(None, Some(top), None)))
      == Some(HookError(NoBottomsMessage))
    ensures ApparelSizeErrorCorrected("tennis shirts", Some(Size(None, Some(top), None))).None?
  {
    ShirtsAreTops();
  }
}

=== FILE: products.dfy ===
/** The product routes: the paged listing and the permission decisions of
    create, patch, replace and delete. Database queries are not modelled;
    their results (`Outcome`, `Lookup`) are parameters, and a decision of
    `Allow` stands for going on to run the write. */
module Products {
  import opened Errors
  import opened Text
  import opened Authentication

  datatype Product = Product(id: string, name: string, price: real, seller: string)

  // =====================================================================
  // GET / : the paged listing
  // =====================================================================

  const PageSize: int := 10

  /** `parseInt(req.query.page) || 1`: `NaN` and zero both fall back to 1. */
  function PageParam(query: Option<string>): (page: int)
    ensures page != 0
    ensures query.None? ==> page == 1
    ensures query.Some? && ParseInt(query.value).None? ==> page == 1
    ensures query.Some? && ParseInt(query.value) == Some(0) ==> page == 1
    ensures query.Some? && ParseInt(query.value).Some? && ParseInt(query.value).value != 0 ==>
      page == ParseInt(query.value).value
  {
    match query
    case None => 1
    case Some(q) =>
      match ParseInt(q)
      case None => 1
      case Some(n) => if n == 0 then 1 else n
  }

  /** `Math.ceil(count / PAGESIZE)`. */
  function LastPage(count: nat): (last: nat)
    ensures last * PageSize >= count
    ensures count > 0 ==> (last - 1) * PageSize < count
    ensures count == 0 <==> last == 0
  {
    (count + PageSize - 1) / PageSize
  }

  /** The page actually served: raised to 1 first, then lowered to the last
      page. With no products the last page is 0, so the page is 0. */
  function ServedPage(requested: int, count: nat): (page: nat)
    ensures count > 0 ==> 1 <= page <= LastPage(count)
    ensures count == 0 ==> page == 0
    ensures 1 <= requested <= LastPage(count) ==> page == requested
    ensures count > 0 && requested < 1 ==> page == 1
    ensures requested > LastPage(count) ==> page == LastPage(count)
  {
    var raised := if requested < 1 then 1 else requested;
    if raised > LastPage(count) then LastPage(count) else raised
  }

  /** The index `Array.prototype.slice` reads an argument as: negative
      arguments count back from the end; the result is clamped to the array. */
  function SliceIndex(i: int, len: nat): (k: nat)
    ensures k <= len
    ensures 0 <= i <= len ==> k == i
  {
    if i < 0 then (if len + i < 0 then 0 else len + i)
    else if i > len then len
    else i
  }

  /** `s.slice(start, end)`. */
  function JsSlice<T>(s: seq<T>, start: int, end: int): (r: seq<T>)
    ensures |r| <= |s|
    ensures 0 <= start <= end <= |s| ==> r == s[start..end]
    ensures 0 <= start <= |s| <= end ==> r == s[start..]
    ensures |s| == 0 ==> r == []
    ensures 0 <= start <= |s| && start <= end ==> r == s[start..if end <= |s| then end else |s|]
    ensures start <= end ==> |r| <= end - start
  {
    var a := SliceIndex(start, |s|);
    var b := SliceIndex(end, |s|);
    if a < b then s[a..b] else []
  }

  /** The `start`/`end` pair handed to `slice` for a page: `start` is
      `(page - 1) * PAGESIZE` and `end` is `start + span`. */
  datatype Window = Window(start: int, end: int)

  function PageWindow(page: int, span: int): Window {
    var start := (page - 1) * PageSize;
    Window(start, start + span)
  }

  /** As written, `end` is `start + PAGESIZE - 1`, and `slice` excludes `end`. */
  const WrittenSpan: nat := PageSize - 1

  /** A listed product: `_id`, `name`, `price` and the details link. */
  datatype Summary = Summary(id: string, name: string, price: real, path: string)

  function Summarize(p: Product): Summary {
    Summary(p.id, p.name, p.price, "/products/" + p.id)
  }

  function SummarizeAll(ps: seq<Product>): (r: seq<Summary>)
    ensures |r| == |ps|
    ensures forall i :: 0 <= i < |ps| ==> r[i] == Summarize(ps[i])
  {
    seq(|ps|, i requires 0 <= i < |ps| => Summarize(ps[i]))
  }

  /** `/products/?page=<n>`. */
  function PageLink(n: nat): string {
    "/products/?page=" + NatToString(n)
  }

  /** The query value a page link carries. */
  function LinkQuery(link: string): string
    requires |link| >= 16
  {
    link[16..]
  }

  datatype Links = Links(
    firstPage: string,
    prevPage: Option<string>,
    nextPage: Option<string>,
    lastPage: string)

  /** The response of GET /products. */
  datatype Listing = Listing(
    products: seq<Summary>,
    pageNumber: nat,
    totalPages: nat,
    pageSize: int,
    count: nat,
    links: Links)

  function PageLinks(page: nat, last: nat): (l: Links)
    ensures l.firstPage == PageLink(1) && l.lastPage == PageLink(last)
    ensures l.prevPage.Some? <==> page > 1
    ensures l.nextPage.Some? <==> page < last
  {
    Links(
      PageLink(1),
      if page > 1 then Some(PageLink(page - 1)) else None,
      if page < last then Some(PageLink(page + 1)) else None,
      PageLink(last))
  }

  /** The summaries a page shows when `span` positions are sliced from
      the start of the page: those of the products from the start of the
      page up to `span` further, clipped to the list. */
  function PageProducts(docs: seq<Product>, page: nat, span: nat): (ps: seq<Summary>)
    ensures |ps| <= span
    ensures |docs| == 0 ==> ps == []
    ensures 1 <= page && (page - 1) * PageSize < |docs| ==>
      var lo := (page - 1) * PageSize;
      var hi := if lo + span <= |docs| then lo + span else |docs|;
      ps == SummarizeAll(docs[lo..hi])
  {
    var w := PageWindow(page, span);
    SummarizeAll(JsSlice(docs, w.start, w.end))
  }

  /** The listing for `docs` (all products, in the order the query returned
      them) and the `page` query parameter, slicing `span` positions from
      the start of the page. */
  function ListingWith(docs: seq<Product>, query: Option<string>, span: nat): Listing {
    var page := ServedPage(PageParam(query), |docs|);
    Listing(
      PageProducts(docs, page, span),
      page,
      LastPage(|docs|),
      PageSize,
      |docs|,
      PageLinks(page, LastPage(|docs|)))
  }

  /** The listing as written. At most nine products are shown although
      the reported page size is ten. */
  function Paginate(docs: seq<Product>, query: Option<string>): (r: Listing)
    ensures r.count == |docs| && r.pageSize == PageSize
    ensures r.totalPages == LastPage(|docs|)
    ensures |r.products| <= PageSize - 1
    ensures |docs| > 0 ==> 1 <= r.pageNumber <= r.totalPages
    ensures |docs| == 0 ==> r.pageNumber == 0 && r.products == []
  {
    ListingWith(docs, query, WrittenSpan)
  }

  /** The listing with `end = start + PAGESIZE`, showing full pages. */
  function PaginateCorrected(docs: seq<Product>, query: Option<string>): (r: Listing)
    ensures r.count == |docs| && r.pageSize == PageSize
    ensures r.totalPages == LastPage(|docs|)
    ensures |r.products| <= PageSize
    ensures |docs| > 0 ==> 1 <= r.pageNumber <= r.totalPages
    ensures |docs| == 0 ==> r.pageNumber == 0 && r.products == []
  {
    ListingWith(docs, query, PageSize)
  }

  /** GET /products: the listing, or the query's error forwarded unchanged.
      As written, each page shows at most nine products. */
  function ListProducts(found: Outcome<seq<Product>>, query: Option<string>): (r: Outcome<Listing>)
    ensures found.Fail? ==> r == Fail(found.error)
    ensures found.Ok? ==> r.Ok? && r.value.count == |found.value| && r.value.pageSize == PageSize
    ensures found.Ok? ==> |r.value.products| <= PageSize - 1
    ensures found.Ok? ==> r == Ok(Paginate(found.value, query))
  {
    match found
    case Fail(e) => Fail(e)
    case Ok(docs) => Ok(Paginate(docs, query))
  }

  /** The route with the corrected slice: each page shows up to ten products. */
  function ListProductsCorrected(found: Outcome<seq<Product>>, query: Option<string>): (r: Outcome<Listing>)
    ensures found.Fail? ==> r == Fail(found.error)
    ensures found.Ok? ==> r.Ok? && r.value.count == |found.value| && r.value.pageSize == PageSize
    ensures found.Ok? ==> |r.value.products| <= PageSize
    ensures found.Ok? ==> r == Ok(PaginateCorrected(found.value, query))
  {
    match found
    case Fail(e) => Fail(e)
    case Ok(docs) => Ok(PaginateCorrected(docs, query))
  }

  /** What the route answers for the products found: the page asked for
      shows the products from the start of that page up to nine further,
      clipped to the list. */
  lemma ListProductsShowsWindow(docs: seq<Product>, query: Option<string>)
    requires |docs| > 0
    ensures ShowsWindow(docs, ListProducts(Ok(docs), query).value, WrittenSpan)
  {
    ListingShowsWindow(docs, query);
  }

  /** Ten products found: the route answers with the first nine, whatever
      page is asked for. */
  lemma ListProductsTenShowNine(docs: seq<Product>, query: Option<string>)
    requires |docs| == 10
    ensures ListProducts(Ok(docs), query).value.products == SummarizeAll(docs[..9])
  {
    TenProductsShowNine(docs, query);
  }

  /** Listing `r` shows the products of `docs` from the start of its page
      up to `span` further, clipped to the list; the page starts inside the
      list. */
  predicate ShowsWindow(docs: seq<Product>, r: Listing, span: nat) {
    var lo := (r.pageNumber - 1) * PageSize;
    var hi := if lo + span <= |docs| then lo + span else |docs|;
    && 0 <= lo < |docs| && lo <= hi
    && r.products == SummarizeAll(docs[lo..hi])
  }

  /** Which products a page shows: those at positions `(page-1)*10` up to,
      but not including, `(page-1)*10 + 9`. */
  lemma ListingShowsWindow(docs: seq<Product>, query: Option<string>)
    requires |docs| > 0
    ensures ShowsWindow(docs, Paginate(docs, query), WrittenSpan)
  {
    var r := Paginate(docs, query);
    var page := ServedPage(PageParam(query), |docs|);
    ListingWithParts(docs, query, WrittenSpan);
    ServedPageStartsInList(PageParam(query), |docs|);
    ListingAtPage(docs, r, page, WrittenSpan);
  }

  /** A listing carrying page `page` and that page's products shows the
      products from the start of the page up to `span` further. */
  lemma ListingAtPage(docs: seq<Product>, r: Listing, page: nat, span: nat)
    requires 1 <= page && (page - 1) * PageSize < |docs|
    requires r.pageNumber == page && r.products == PageProducts(docs, page, span)
    ensures ShowsWindow(docs, r, span)
  {
  }

  /** The listing's page number and products, for any slice width. */
  lemma ListingWithParts(docs: seq<Product>, query: Option<string>, span: nat)
    ensures var page := ServedPage(PageParam(query), |docs|);
      && ListingWith(docs, query, span).pageNumber == page
      && ListingWith(docs, query, span).products == PageProducts(docs, page, span)
  {
  }

  /** A page served from a non-empty list starts inside the list. */
  lemma ServedPageStartsInList(requested: int, count: nat)
    requires count > 0
    ensures var page := ServedPage(requested, count);
      1 <= page && (page - 1) * PageSize < count
  {
    var page := ServedPage(requested, count);
    var last := LastPage(count);
    assert (page - 1) * PageSize <= (last - 1) * PageSize;
  }

  /** The links: first and last always; previous exactly above page 1;
      next exactly below the last page. */
  lemma ListingLinks(docs: seq<Product>, query: Option<string>)
    ensures var r := Paginate(docs, query);
      && r.links.firstPage == "/products/?page=1"
      && r.links.lastPage == PageLink(r.totalPages)
      && (r.links.prevPage.Some? <==> r.pageNumber > 1)
      && (r.links.nextPage.Some? <==> r.pageNumber < r.totalPages)
  {
    assert NatToString(1) == "1";
  }

  /** Following a page link serves the page it names: the next link of page
      `p` leads to page `p + 1`, the previous link to page `p - 1`. */
  lemma FollowingLinksMovesOnePage(docs: seq<Product>, query: Option<string>)
    ensures var r := Paginate(docs, query);
      && (r.links.nextPage.Some? ==>
            Paginate(docs, Some(LinkQuery(r.links.nextPage.value))).pageNumber == r.pageNumber + 1)
      && (r.links.prevPage.Some? ==>
            Paginate(docs, Some(LinkQuery(r.links.prevPage.value))).pageNumber == r.pageNumber - 1)
  {
    FollowingNextLink(docs, query);
    FollowingPrevLink(docs, query);
  }

  /** The next link's query serves the following page. */
  lemma FollowingNextLink(docs: seq<Product>, query: Option<string>)
    ensures var r := Paginate(docs, query);
      r.links.nextPage.Some? ==>
        Paginate(docs, Some(LinkQuery(r.links.nextPage.value))).pageNumber == r.pageNumber + 1
  {
    PaginateLinks(docs, query);
    NextLinkServes(docs, Paginate(docs, query));
  }

  /** The previous link's query serves the preceding page. */
  lemma FollowingPrevLink(docs: seq<Product>, query: Option<string>)
    ensures var r := Paginate(docs, query);
      r.links.prevPage.Some? ==>
        Paginate(docs, Some(LinkQuery(r.links.prevPage.value))).pageNumber == r.pageNumber - 1
  {
    PaginateLinks(docs, query);
    PrevLinkServes(docs, Paginate(docs, query));
  }

  /** A listing whose next link names an existing page: following it
      serves that page. */
  lemma NextLinkServes(docs: seq<Product>, r: Listing)
    requires r.links.nextPage.Some? ==>
      1 <= r.pageNumber + 1 <= LastPage(|docs|) && r.links.nextPage.value == PageLink(r.pageNumber + 1)
    ensures r.links.nextPage.Some? ==>
      Paginate(docs, Some(LinkQuery(r.links.nextPage.value))).pageNumber == r.pageNumber + 1
  {
    if r.links.nextPage.Some? {
      LinkServes(docs, r.links.nextPage.value, r.pageNumber + 1);
    }
  }

  /** A listing whose previous link names an existing page: following it
      serves that page. */
  lemma PrevLinkServes(docs: seq<Product>, r: Listing)
    requires r.links.prevPage.Some? ==>
      1 <= r.pageNumber - 1 <= LastPage(|docs|) && r.links.prevPage.value == PageLink(r.pageNumber - 1)
    ensures r.links.prevPage.Some? ==>
      Paginate(docs, Some(LinkQuery(r.links.prevPage.value))).pageNumber == r.pageNumber - 1
  {
    if r.links.prevPage.Some? {
      LinkServes(docs, r.links.prevPage.value, r.pageNumber - 1);
    }
  }

  /** The listing's links are those of its page among `LastPage` pages, and
      each present link names a page that exists. */
  lemma PaginateLinks(docs: seq<Product>, query: Option<string>)
    ensures Paginate(docs, query).links == PageLinks(Paginate(docs, query).pageNumber, LastPage(|docs|))
    ensures var r := Paginate(docs, query);
      r.links.nextPage.Some? ==>
        1 <= r.pageNumber + 1 <= LastPage(|docs|) && r.links.nextPage.value == PageLink(r.pageNumber + 1)
    ensures var r := Paginate(docs, query);
      r.links.prevPage.Some? ==>
        1 <= r.pageNumber - 1 <= LastPage(|docs|) && r.links.prevPage.value == PageLink(r.pageNumber - 1)
  {
  }

  /** A link naming an existing page serves that page. */
  lemma LinkServes(docs: seq<Product>, link: string, n: nat)
    requires link == PageLink(n) && 1 <= n <= LastPage(|docs|)
    ensures |link| >= 16 && Paginate(docs, Some(LinkQuery(link))).pageNumber == n
  {
    LinkLeadsTo(docs, n);
  }

  /** The link to an existing page serves that page. */
  lemma LinkLeadsTo(docs: seq<Product>, n: nat)
    requires 1 <= n <= LastPage(|docs|)
    ensures |PageLink(n)| >= 16
    ensures Paginate(docs, Some(LinkQuery(PageLink(n)))).pageNumber == n
  {
    LinkQueryOfPageLink(n);
    ServesLinkedPage(docs, n);
  }

  /** Asking for an existing page by its number serves that page. */
  lemma ServesLinkedPage(docs: seq<Product>, n: nat)
    requires 1 <= n <= LastPage(|docs|)
    ensures Paginate(docs, Some(NatToString(n))).pageNumber == n
  {
    PageParamOfLink(n);
  }

  lemma LinkQueryOfPageLink(n: nat)
    ensures |PageLink(n)| >= 16 && LinkQuery(PageLink(n)) == NatToString(n)
  {
  }

  /** The query value of a page link reads back as that page. */
  lemma PageParamOfLink(n: nat)
    requires n >= 1
    ensures PageParam(Some(NatToString(n))) == n
  {
    ParseIntNatToString(n);
  }

  /** The product at a position `10k + 9` is on no page: whatever page is
      asked for, the slice stops one short of it. */
  lemma TenthOfEachPageNeverListed(docs: seq<Product>, query: Option<string>, i: int)
    requires 0 <= i < |docs| && i % PageSize == PageSize - 1
    ensures var r := Paginate(docs, query);
      var lo := (r.pageNumber - 1) * PageSize;
      !(lo <= i < lo + WrittenSpan)
  {
    var r := Paginate(docs, query);
    LastSlotOutsideShortWindow(r.pageNumber - 1, i);
  }

  lemma LastSlotOutsideShortWindow(k: int, i: int)
    requires i % PageSize == PageSize - 1
    ensures !(k * PageSize <= i < k * PageSize + WrittenSpan)
  {
    assert i == (i / PageSize) * PageSize + PageSize - 1;
  }

  /** Ten products: every page request shows nine of them. */
  lemma TenProductsShowNine(docs: seq<Product>, query: Option<string>)
    requires |docs| == 10
    ensures Paginate(docs, query).products == SummarizeAll(docs[..9])
  {
    assert LastPage(10) == 1;
  }

  /** With the corrected slice every product is listed: product `i` is entry
      `i % 10` of page `i / 10 + 1`, and that page's link leads to it. */
  lemma CorrectedListsEveryProduct(docs: seq<Product>, i: int)
    requires 0 <= i < |docs|
    ensures var n := i / PageSize + 1;
      var r := PaginateCorrected(docs, Some(NatToString(n)));
      && r.pageNumber == n
      && i % PageSize < |r.products|
      && r.products[i % PageSize] == Summarize(docs[i])
  {
    var n := i / PageSize + 1;
    PageOfIndex(i, |docs|);
    CorrectedPageContents(docs, n);
    var lo := (n - 1) * PageSize;
    var hi := if lo + PageSize <= |docs| then lo + PageSize else |docs|;
    EntryOfPage(docs, PaginateCorrected(docs, Some(NatToString(n))), n, lo, hi, i);
  }

  /** Entry `i % 10` of a listing for page `n` whose products are the
      summaries of `docs[lo..hi]`, with `lo` the start of page `n`, is
      product `i`'s. */
  lemma EntryOfPage(docs: seq<Product>, r: Listing, n: nat, lo: int, hi: int, i: int)
    requires n == i / PageSize + 1 && lo == (n - 1) * PageSize
    requires 0 <= lo <= i < hi <= |docs|
    requires r.pageNumber == n && r.products == SummarizeAll(docs[lo..hi])
    ensures && r.pageNumber == n
      && i % PageSize < |r.products|
      && r.products[i % PageSize] == Summarize(docs[i])
  {
    assert i - lo == i % PageSize;
    EntryOfWindow(docs, r.products, lo, hi, i);
  }

  /** Entry `i - lo` of the summaries of `docs[lo..hi]` is product `i`'s. */
  lemma EntryOfWindow(docs: seq<Product>, ps: seq<Summary>, lo: int, hi: int, i: int)
    requires 0 <= lo <= i < hi <= |docs| && ps == SummarizeAll(docs[lo..hi])
    ensures i - lo < |ps| && ps[i - lo] == Summarize(docs[i])
  {
    assert docs[lo..hi][i - lo] == docs[i];
  }

  /** Product `i` of `count` belongs to page `i / 10 + 1`, which exists. */
  lemma PageOfIndex(i: int, count: nat)
    requires 0 <= i < count
    ensures 1 <= i / PageSize + 1 <= LastPage(count)
    ensures (i / PageSize) * PageSize + i % PageSize == i
  {
    var last := LastPage(count);
    var q := i / PageSize;
    assert q * PageSize < last * PageSize;
    assert (last - q) * PageSize > 0;
  }

  /** The corrected listing for page `n`, asked for by number: the products
      at positions `(n-1)*10` up to `(n-1)*10 + 10`, clipped to the list. */
  lemma CorrectedPageContents(docs: seq<Product>, n: nat)
    requires 1 <= n <= LastPage(|docs|)
    ensures var r := PaginateCorrected(docs, Some(NatToString(n)));
      var lo := (n - 1) * PageSize;
      var hi := if lo + PageSize <= |docs| then lo + PageSize else |docs|;
      && r.pageNumber == n
      && 0 <= lo < hi <= |docs|
      && r.products == SummarizeAll(docs[lo..hi])
  {
    var query := Some(NatToString(n));
    PageParamOfLink(n);
    ServedPageStartsInList(n, |docs|);
    ListingWithParts(docs, query, PageSize);
    ListingAtPage(docs, PaginateCorrected(docs, query), n, PageSize);
  }

  /** With the corrected slice the pages do not overlap: a product shown on
      a page is shown on page `i / 10 + 1` only. */
  lemma CorrectedPagesAreDisjoint(docs: seq<Product>, query: Option<string>, i: int)
    requires 0 <= i < |docs|
    ensures var r := PaginateCorrected(docs, query);
      var lo := (r.pageNumber - 1) * PageSize;
      lo <= i < lo + PageSize ==> r.pageNumber == i / PageSize + 1
  {
  }

  // =====================================================================
  // Permission decisions
  // =====================================================================

  const NotAuthorized := "request is unauthorized"
  const NotAuthenticated := "request is unauthenticated"
  const NoSuchProduct := "No product exist for the provided productId"

  /** The ownership rule the routes are built around: an administrator, or
      the product's seller. */
  predicate MayManage(user: Payload, seller: string) {
    IsAdmin(user) || user.id == seller
  }

  /** A patch body leaves the seller alone or names the caller. */
  predicate KeepsSeller(user: Payload, bodySeller: Option<string>) {
    !Truthy(bodySeller) || bodySeller == Some(user.id)
  }

  /** POST /products: an administrator, or a caller naming themself as the
      seller; otherwise 403 for a known caller and 401 for an anonymous one. */
  function CreateProduct(user: Option<Payload>, bodySeller: Option<string>): (d: Decision)
    ensures d.Deny? ==>
      d.error == Raise("Authorization", NotAuthorized, if user.Some? then 403 else 401)
    ensures user.None? ==> d.Deny?
  {
    if user.Some? && (IsAdmin(user.value) || Some(user.value.id) == bodySeller) then Allow
    else Deny(Raise("Authorization", NotAuthorized, if user.Some? then 403 else 401))
  }

  /** Creation follows the ownership rule for the seller the body names;
      an administrator may also create a product naming no seller. */
  lemma CreateFollowsOwnership(user: Option<Payload>, bodySeller: Option<string>)
    ensures CreateProduct(user, bodySeller).Allow? <==>
      user.Some? && (IsAdmin(user.value) || (bodySeller.Some? && MayManage(user.value, bodySeller.value)))
  {
  }

  /** PATCH /products/:id as written: the administrator test reads the
      token's `priviledge` claim; the owner path also forbids handing the
      product to another seller. */
  function PatchProduct(user: Option<Payload>, stored: Lookup<Product>, bodySeller: Option<string>): (d: Decision)
    ensures user.None? ==> d == Deny(Raise("Authorization", NotAuthenticated, 401))
    ensures user.Some? && stored.Missing? ==> d == Deny(Raise("InvalidPath", NoSuchProduct, 404))
    ensures user.Some? && stored.Failed? ==> d == Deny(stored.error)
    ensures user.Some? && stored.Found? && d.Deny? ==>
      d.error == Raise("Authorization", NotAuthorized, 403)
    ensures user.Some? && stored.Found? ==>
      (d.Allow? <==>
        (user.value.priviledge == Some("ADMIN") ||
         (user.value.id == stored.doc.seller && KeepsSeller(user.value, bodySeller))))
  {
    match user
    case None => Deny(Raise("Authorization", NotAuthenticated, 401))
    case Some(u) =>
      match stored
      case Failed(e) => Deny(e)
      case Missing => Deny(Raise("InvalidPath", NoSuchProduct, 404))
      case Found(p) =>
        if u.priviledge == Some("ADMIN") || (u.id == p.seller && KeepsSeller(u, bodySeller)) then Allow
        else Deny(Raise("Authorization", NotAuthorized, 403))
  }

  /** For every token this system issues, PATCH is open to the seller only:
      an administrator who does not own the product is refused. */
  lemma PatchIgnoresAccessLevel(u: Payload, p: Product, bodySeller: Option<string>)
    requires u == GenerateAuthToken(u.id, u.username, u.accessLevel)
    ensures PatchProduct(Some(u), Found(p), bodySeller).Allow? <==>
      u.id == p.seller && KeepsSeller(u, bodySeller)
  {
  }

  /** An administrator's token, a product sold by someone else: 403. */
  lemma AdminPatchRefused()
    ensures PatchProduct(
      Some(GenerateAuthToken("a1", "root", "ADMIN")),
      Found(Product("p1", "racquet", 99.0, "s1")),
      None) == Deny(Raise("Authorization", NotAuthorized, 403))
  {
  }

  /** PATCH with the administrator test reading `access_level`, as the
      other routes do. */
  function PatchProductCorrected(user: Option<Payload>, stored: Lookup<Product>, bodySeller: Option<string>): (d: Decision)
    ensures user.None? ==> d == Deny(Raise("Authorization", NotAuthenticated, 401))
    ensures user.Some? && stored.Missing? ==> d == Deny(Raise("InvalidPath", NoSuchProduct, 404))
    ensures user.Some? && stored.Failed? ==> d == Deny(stored.error)
    ensures user.Some? && stored.Found? && d.Deny? ==>
      d.error == Raise("Authorization", NotAuthorized, 403)
  {
    match user
    case None => Deny(Raise("Authorization", NotAuthenticated, 401))
    case Some(u) =>
      match stored
      case Failed(e) => Deny(e)
      case Missing => Deny(Raise("InvalidPath", NoSuchProduct, 404))
      case Found(p) =>
        if IsAdmin(u) || (u.id == p.seller && KeepsSeller(u, bodySeller)) then Allow
        else Deny(Raise("Authorization", NotAuthorized, 403))
  }

  /** The corrected PATCH follows the ownership rule, and only an
      administrator may reassign the seller. */
  lemma PatchCorrectedFollowsOwnership(u: Payload, p: Product, bodySeller: Option<string>)
    ensures PatchProductCorrected(Some(u), Found(p), bodySeller).Allow? <==>
      MayManage(u, p.seller) && (IsAdmin(u) || KeepsSeller(u, bodySeller))
  {
  }

  /** PUT /products/:id. `validation` is the outcome of validating the new
      document, `newSeller` the seller it names. An administrator may
      replace or create; anyone else must own the stored product and keep
      themself as seller. A non-administrator replacing a product that does
      not exist dereferences `null` and fails with a `TypeError`. */
  function PutProduct(user: Option<Payload>, validation: Option<Error>, stored: Lookup<Product>, newSeller: string): (d: Decision)
    ensures user.None? ==> d == Deny(Raise("Athorization", NotAuthenticated, 401))
    ensures user.Some? && validation.Some? ==> d == Deny(validation.value)
    ensures user.Some? && validation.None? && stored.Failed? ==> d == Deny(stored.error)
    ensures user.Some? && validation.None? && stored.Missing? ==>
      d == if IsAdmin(user.value) then Allow else Deny(NullSellerError)
  {
    match user
    case None => Deny(Raise("Athorization", NotAuthenticated, 401))
    case Some(u) =>
      if validation.Some? then Deny(validation.value)
      else
        match stored
        case Failed(e) => Deny(e)
        case Missing => if IsAdmin(u) then Allow else Deny(NullSellerError)
        case Found(p) =>
          if IsAdmin(u) || (u.id == p.seller && newSeller == u.id) then Allow
          else Deny(Raise("Authorization", NotAuthorized, 403))
  }

  /** The `TypeError` of reading `seller` from `null`; it carries no status. */
  const NullSellerError: Error :=
    Error("TypeError", "Cannot read properties of null (reading 'seller')", None, None, None, false)

  /** Replacing an existing product follows the ownership rule, and only an
      administrator may name a different seller. */
  lemma PutFollowsOwnership(u: Payload, p: Product, newSeller: string)
    ensures PutProduct(Some(u), None, Found(p), newSeller).Allow? <==>
      MayManage(u, p.seller) && (IsAdmin(u) || newSeller == u.id)
    ensures PutProduct(Some(u), None, Found(p), newSeller).Deny? ==>
      PutProduct(Some(u), None, Found(p), newSeller).error.statusCode == Some(403)
  {
  }

  /** DELETE /products/:id: 404 for a missing product before any permission
      check, then the ownership rule. */
  function DeleteProduct(user: Option<Payload>, stored: Lookup<Product>): (d: Decision)
    ensures user.None? ==> d == Deny(Raise("Authorization", NotAuthenticated, 401))
    ensures user.Some? && stored.Missing? ==> d == Deny(Raise("InvalidPath", NoSuchProduct, 404))
    ensures user.Some? && stored.Failed? ==> d == Deny(stored.error)
    ensures user.Some? && stored.Found? ==>
      (d.Allow? <==> MayManage(user.value, stored.doc.seller))
    ensures user.Some? && stored.Found? && d.Deny? ==>
      d.error == Raise("Authorization", NotAuthorized, 403)
  {
    match user
    case None => Deny(Raise("Authorization", NotAuthenticated, 401))
    case Some(u) =>
      match stored
      case Failed(e) => Deny(e)
      case Missing => Deny(Raise("InvalidPath", NoSuchProduct, 404))
      case Found(p) =>
        if IsAdmin(u) || u.id == p.seller then Allow
        else Deny(Raise("Authorization", NotAuthorized, 403))
  }

  /** Every write route refuses an anonymous caller with 401, whatever the
      body and the stored document. */
  lemma AnonymousWritesRefused(stored: Lookup<Product>, validation: Option<Error>, bodySeller: Option<string>, newSeller: string)
    ensures CreateProduct(None, bodySeller).error.statusCode == Some(401)
    ensures PatchProduct(None, stored, bodySeller).error.statusCode == Some(401)
    ensures PutProduct(None, validation, stored, newSeller).error.statusCode == Some(401)
    ensures DeleteProduct(None, stored).error.statusCode == Some(401)
  {
  }
}

=== FILE: rate_limiting.dfy ===
/** The token-bucket rate limiter that runs before every route. Each client
    address owns a bucket of `tokens` and the timestamp `last` of its most
    recent decision; buckets refill continuously at 30 tokens per 60000 ms,
    hold at most 30 tokens, and every admitted request spends one token.

    The external store is reduced to what one request sees of it: the result
    of the read (`StoreRead`) and the record written back (`Admission.saved`).
    Timestamps are integer milliseconds supplied by the caller; token counts
    are exact rationals. */
module RateLimiting {
  import opened Errors

  const WindowMillis: int := 60000
  const WindowMaxRequests: int := 30

  /** The most tokens a bucket can hold. */
  const Capacity: real := WindowMaxRequests as real

  /** Tokens regained per elapsed millisecond: one token per 2000 ms. */
  const RefreshRate: real := 0.0005

  /** The refresh rate is the window's request budget spread over the window. */
  lemma RefreshRateIsWindowRate()
    ensures RefreshRate == WindowMaxRequests as real / WindowMillis as real
    ensures 2000 as real * RefreshRate == 1.0
  {
  }

  datatype Bucket = Bucket(tokens: real, last: int)

  /** The bounds a bucket is meant to stay within. */
  predicate Valid(b: Bucket) {
    0.0 <= b.tokens <= Capacity
  }

  // ---------------------------------------------------------------------
  // Loading a bucket
  // ---------------------------------------------------------------------

  /** The record `getTokenBucket` synthesises for an address it has never
      seen, stamped with the clock reading taken while loading. */
  function Fresh(clock: int): Bucket {
    Bucket(WindowMaxRequests as real, clock)
  }

  /** What the store's `hgetall` reported for one address. */
  datatype StoreRead = Hit(bucket: Bucket) | Miss | ReadError(error: Error)

  /** `getTokenBucket`: the stored record, a full bucket for an unknown
      address, or the store's error. */
  function GetTokenBucket(read: StoreRead, clock: int): (r: Outcome<Bucket>)
    ensures read.Hit? ==> r == Ok(read.bucket)
    ensures read.Miss? ==> r.Ok? && r.value.tokens == 30.0 && r.value.last == clock
    ensures read.Miss? ==> Valid(r.value)
    ensures read.ReadError? ==> r == Fail(read.error)
  {
    match read
    case Hit(b) => Ok(b)
    case Miss => Ok(Fresh(clock))
    case ReadError(e) => Fail(e)
  }

  // ---------------------------------------------------------------------
  // One decision
  // ---------------------------------------------------------------------

  function Min(a: real, b: real): real {
    if a <= b then a else b
  }

  /** The token count after crediting the time elapsed since `b.last`,
      capped at the capacity. Only the top is capped: a clock that ran
      backwards takes tokens away. */
  function Refill(b: Bucket, now: int): (t: real)
    ensures t <= Capacity
    ensures t <= b.tokens + (now - b.last) as real * RefreshRate
    ensures t < Capacity ==> t == b.tokens + (now - b.last) as real * RefreshRate
    ensures Valid(b) && b.last <= now ==> b.tokens <= t
  {
    Min(Capacity, b.tokens + (now - b.last) as real * RefreshRate)
  }

  datatype StepResult = StepResult(bucket: Bucket, admitted: bool)

  /** The refill/consume/verdict logic of `rateLimit` applied to a loaded
      bucket at time `now`. */
  function Step(b: Bucket, now: int): (r: StepResult)
    ensures r.bucket.last == now
    ensures r.admitted <==> Refill(b, now) >= 1.0
    ensures r.admitted ==> r.bucket.tokens == Refill(b, now) - 1.0
    ensures !r.admitted ==> r.bucket.tokens == Refill(b, now)
    ensures Valid(b) && b.last <= now ==> Valid(r.bucket)
  {
    var t := Refill(b, now);
    if t >= 1.0 then StepResult(Bucket(t - 1.0, now), true)
    else StepResult(Bucket(t, now), false)
  }

  /** The error a refused request is forwarded with. */
  const RateLimitError: Error :=
    Raise("Rate Limiting", "request exceeds rate limit for subscription", 429)

  /** What one call of `rateLimit` does: the record it writes back (none
      when the read failed) and whether it calls `next()` or `next(err)`. */
  datatype Admission = Admission(saved: Option<Bucket>, decision: Decision)

  /** `rateLimit` for one request: `loadClock` is the clock reading taken
      inside `getTokenBucket`, `now` the one taken after it. */
  function RateLimit(read: StoreRead, loadClock: int, now: int): (r: Admission)
    ensures read.ReadError? ==> r == Admission(None, Deny(read.error))
    ensures !read.ReadError? ==> r.saved.Some? && r.saved.value.last == now
    ensures !read.ReadError? ==> (r.decision == Allow || r.decision == Deny(RateLimitError))
    ensures read.Hit? ==>
      (r.decision == Allow <==> Refill(read.bucket, now) >= 1.0)
    ensures read.Hit? && r.decision == Allow ==>
      r.saved.value.tokens == Refill(read.bucket, now) - 1.0
    ensures read.Hit? && r.decision != Allow ==>
      r.saved.value.tokens == Refill(read.bucket, now)
    ensures read.Miss? && loadClock <= now ==>
      r == Admission(Some(Bucket(29.0, now)), Allow)
    ensures read.Miss? ==>
      (r.decision == Allow <==> Refill(Fresh(loadClock), now) >= 1.0)
  {
    match GetTokenBucket(read, loadClock)
    case Fail(e) => Admission(None, Deny(e))
    case Ok(b) =>
      var s := Step(b, now);
      Admission(Some(s.bucket), if s.admitted then Allow else Deny(RateLimitError))
  }

  /** The bucket can go negative when the clock runs backwards: the code
      caps the refill from above only. */
  lemma ClockRegressionDrivesTokensNegative()
    ensures Valid(Bucket(0.5, 10000))
    ensures Step(Bucket(0.5, 10000), 0) == StepResult(Bucket(-4.5, 0), false)
  {
  }

  /** A refused request costs nothing: the next decision, at any later or
      earlier time, is the one that would have been made had the refused
      request never arrived. This is what keeping the partial refill on the
      denial path buys. */
  lemma DeniedRequestIsFree(b: Bucket, t: int, t': int)
    requires !Step(b, t).admitted
    ensures Step(b, t).bucket.tokens == b.tokens + (t - b.last) as real * RefreshRate
    ensures Step(Step(b, t).bucket, t') == Step(b, t')
  {
  }

  /** A client that waits 2000 ms, the time one token takes to regrow, is
      never refused. */
  lemma WaitingOneTokenAdmits(b: Bucket, now: int)
    requires Valid(b)
    requires now - b.last >= 2000
    ensures Step(b, now).admitted
  {
  }

  // ---------------------------------------------------------------------
  // Sequences of decisions for one address
  // ---------------------------------------------------------------------

  datatype Trace = Trace(final: Bucket, verdicts: seq<bool>)

  /** The decisions for successive requests from one address at `times`. */
  function Run(b: Bucket, times: seq<int>): (tr: Trace)
    ensures |tr.verdicts| == |times|
    ensures tr.final.last == if |times| == 0 then b.last else times[|times| - 1]
    decreases |times|
  {
    if |times| == 0 then Trace(b, [])
    else
      var s := Step(b, times[0]);
      var rest := Run(s.bucket, times[1..]);
      Trace(rest.final, [s.admitted] + rest.verdicts)
  }

  /** Number of admitted requests. */
  function Admitted(verdicts: seq<bool>): nat {
    if |verdicts| == 0 then 0
    else (if verdicts[0] then 1 else 0) + Admitted(verdicts[1..])
  }

  /** Timestamps that never go back, starting from `start`. */
  predicate Chronological(start: int, times: seq<int>)
    decreases |times|
  {
    |times| == 0 || (start <= times[0] && Chronological(times[0], times[1..]))
  }

  /** `n` copies of `x`. */
  function Repeat<T>(x: T, n: nat): (r: seq<T>)
    ensures |r| == n
  {
    if n == 0 then [] else [x] + Repeat(x, n - 1)
  }

  lemma RepeatCons<T>(x: T, n: nat)
    requires n > 0
    ensures Repeat(x, n) == [x] + Repeat(x, n - 1)
  {
  }

  /** With a clock that never runs backwards, every bucket stays within
      `0 <= tokens <= 30`. */
  lemma {:induction false} RunStaysValid(b: Bucket, times: seq<int>)
    requires Valid(b)
    requires Chronological(b.last, times)
    ensures Valid(Run(b, times).final)
    decreases |times|
  {
    if |times| > 0 {
      RunStaysValid(Step(b, times[0]).bucket, times[1..]);
    }
  }

  /** Token accounting over any run: the admitted requests plus the tokens
      left never exceed the tokens held at the start plus the refill the
      elapsed time earned. The cap only ever discards credit. */
  lemma {:induction false} RunConservesTokens(b: Bucket, times: seq<int>)
    ensures var tr := Run(b, times);
      Admitted(tr.verdicts) as real + tr.final.tokens
        <= b.tokens + (tr.final.last - b.last) as real * RefreshRate
    decreases |times|
  {
    if |times| > 0 {
      var s := Step(b, times[0]);
      var rest := Run(s.bucket, times[1..]);
      RunConservesTokens(s.bucket, times[1..]);
      assert Run(b, times) == Trace(rest.final, [s.admitted] + rest.verdicts);
      AdmittedCons(s.admitted, rest.verdicts);
      StepConserves(b, times[0]);
      ElapsedAdds(b.last, s.bucket.last, rest.final.last);
    }
  }

  /** One decision: the token spent plus the tokens left never exceed the
      tokens held plus the refill earned. */
  lemma StepConserves(b: Bucket, now: int)
    ensures var s := Step(b, now);
      (if s.admitted then 1.0 else 0.0) + s.bucket.tokens
        <= b.tokens + (now - b.last) as real * RefreshRate
  {
  }

  lemma AdmittedCons(v: bool, rest: seq<bool>)
    ensures Admitted([v] + rest) == (if v then 1 else 0) + Admitted(rest)
  {
    assert ([v] + rest)[1..] == rest;
  }

  /** Refill earned over two consecutive stretches adds up. */
  lemma ElapsedAdds(t0: int, t1: int, t2: int)
    ensures (t1 - t0) as real * RefreshRate + (t2 - t1) as real * RefreshRate
      == (t2 - t0) as real * RefreshRate
  {
  }

  /** The rate guarantee: over any stretch of time, one address is admitted
      at most its starting tokens plus one request per 2000 ms elapsed. */
  lemma RunRateBound(b: Bucket, times: seq<int>)
    requires Valid(b)
    requires Chronological(b.last, times)
    ensures var tr := Run(b, times);
      Admitted(tr.verdicts) as real <= Capacity + (tr.final.last - b.last) as real * RefreshRate
  {
    RunConservesTokens(b, times);
    RunStaysValid(b, times);
  }

  /** The number of `n` same-instant requests a bucket can admit. */
  function BurstSize(b: Bucket, n: nat): int {
    if n <= b.tokens.Floor then n else b.tokens.Floor
  }

  /** `n` requests at the instant of the last decision: the first `k` are
      admitted, the rest refused, and `k` tokens are spent. */
  predicate BurstOutcome(b: Bucket, n: nat, k: int) {
    && 0 <= k <= n
    && Run(b, Repeat(b.last, n)).verdicts == Repeat(true, k) + Repeat(false, n - k)
    && Run(b, Repeat(b.last, n)).final == Bucket(b.tokens - k as real, b.last)
  }

  /** Requests arriving at the instant of the last decision are admitted
      while whole tokens remain, then refused: exactly `min(n, floor(tokens))`
      of `n` such requests get through, and they are the first ones. */
  lemma {:induction false} SameInstantBurst(b: Bucket, n: nat)
    requires Valid(b)
    ensures BurstOutcome(b, n, BurstSize(b, n))
    decreases n
  {
    if n > 0 {
      var s := Step(b, b.last);
      assert Valid(s.bucket);
      SameInstantBurst(s.bucket, n - 1);
      if b.tokens >= 1.0 {
        BurstAdmitsFirst(b, n);
      } else {
        BurstRefusesFirst(b, n);
      }
    }
  }

  lemma BurstAdmitsFirst(b: Bucket, n: nat)
    requires Valid(b) && b.tokens >= 1.0 && n > 0
    requires BurstOutcome(Step(b, b.last).bucket, n - 1, BurstSize(Step(b, b.last).bucket, n - 1))
    ensures BurstOutcome(b, n, BurstSize(b, n))
  {
    SameInstantTakesOne(b);
    var s := Step(b, b.last);
    var k := BurstSize(b, n);
    BurstSizeAfterAdmit(b, n);
    var tail := Run(s.bucket, Repeat(b.last, n - 1));
    RepeatCons(b.last, n);
    RunFirst(b, b.last, Repeat(b.last, n - 1));
    PrependTrue(k, n - k);
  }

  /** Spending a whole token shrinks the burst by one. */
  lemma BurstSizeAfterAdmit(b: Bucket, n: nat)
    requires b.tokens >= 1.0 && n > 0
    ensures BurstSize(b, n) >= 1
    ensures BurstSize(Bucket(b.tokens - 1.0, b.last), n - 1) == BurstSize(b, n) - 1
  {
    assert (b.tokens - 1.0).Floor == b.tokens.Floor - 1;
  }

  lemma PrependTrue(k: nat, m: nat)
    requires k >= 1
    ensures [true] + (Repeat(true, k - 1) + Repeat(false, m)) == Repeat(true, k) + Repeat(false, m)
  {
    RepeatCons(true, k);
  }

  lemma BurstRefusesFirst(b: Bucket, n: nat)
    requires Valid(b) && b.tokens < 1.0 && n > 0
    requires BurstOutcome(Step(b, b.last).bucket, n - 1, BurstSize(Step(b, b.last).bucket, n - 1))
    ensures BurstOutcome(b, n, BurstSize(b, n))
  {
    var s := Step(b, b.last);
    assert Refill(b, b.last) == b.tokens;
    assert s.bucket == b;
    assert b.tokens.Floor == 0;
    var tail := Run(s.bucket, Repeat(b.last, n - 1));
    RepeatCons(b.last, n);
    RunFirst(b, b.last, Repeat(b.last, n - 1));
    RepeatCons(false, n);
    assert tail.verdicts == Repeat(false, n - 1);
    assert Repeat(true, 0) + Repeat(false, n) == Repeat(false, n);
  }

  /** Unfolds a run by its first request. */
  lemma RunFirst(b: Bucket, t: int, times: seq<int>)
    ensures Run(b, [t] + times)
      == var s := Step(b, t); var rest := Run(s.bucket, times);
         Trace(rest.final, [s.admitted] + rest.verdicts)
  {
    assert ([t] + times)[1..] == times;
  }

  /** A same-instant request with a whole token spends exactly one. */
  lemma SameInstantTakesOne(b: Bucket)
    requires Valid(b) && b.tokens >= 1.0
    ensures Step(b, b.last) == StepResult(Bucket(b.tokens - 1.0, b.last), true)
    ensures Valid(Step(b, b.last).bucket)
    ensures (b.tokens - 1.0).Floor == b.tokens.Floor - 1
  {
  }

  /** From a full bucket, 30 requests at the same instant are admitted and
      the 31st is refused. */
  lemma FullBucketBurst(t: int)
    ensures Run(Fresh(t), Repeat(t, 31)).verdicts == Repeat(true, 30) + [false]
    ensures Run(Fresh(t), Repeat(t, 31)).final == Bucket(0.0, t)
  {
    assert (30.0).Floor == 30;
    SameInstantBurst(Fresh(t), 31);
    assert BurstSize(Fresh(t), 31) == 30;
    assert Repeat(false, 1) == [false];
  }

  /** Requests spaced at least 2000 ms apart are all admitted. */
  predicate SpacedBy(start: int, times: seq<int>, gap: int)
    decreases |times|
  {
    |times| == 0 || (start + gap <= times[0] && SpacedBy(times[0], times[1..], gap))
  }

  lemma {:induction false} SteadyClientAlwaysAdmitted(b: Bucket, times: seq<int>)
    requires Valid(b)
    requires SpacedBy(b.last, times, 2000)
    ensures forall i :: 0 <= i < |times| ==> Run(b, times).verdicts[i]
    decreases |times|
  {
    if |times| > 0 {
      var s := Step(b, times[0]);
      SteadyClientAlwaysAdmitted(s.bucket, times[1..]);
      var rest := Run(s.bucket, times[1..]);
      assert Run(b, times).verdicts == [true] + rest.verdicts;
    }
  }

  /** The scenario of 30 requests per minute: 30 calls at time `t` pass,
      the 31st at `t` is refused, and a call 2000 ms later passes again
      because the refused call kept the bucket's (empty) partial credit. */
  lemma RecoveryAfterBurst(t: int)
    ensures Run(Fresh(t), Repeat(t, 31) + [t + 2000]).verdicts
      == Repeat(true, 30) + [false, true]
  {
    FullBucketBurst(t);
    var tr := Run(Fresh(t), Repeat(t, 31));
    assert Step(tr.final, t + 2000).admitted;
    RunAppend(Fresh(t), Repeat(t, 31), t + 2000);
  }

  /** Running one more request after a run continues from its final bucket. */
  lemma {:induction false} RunAppend(b: Bucket, times: seq<int>, t: int)
    ensures Run(b, times + [t]).verdicts
      == Run(b, times).verdicts + [Step(Run(b, times).final, t).admitted]
    decreases |times|
  {
    if |times| > 0 {
      var s := Step(b, times[0]);
      assert (times + [t])[1..] == times[1..] + [t];
      RunAppend(s.bucket, times[1..], t);
    }
  }

  /** A same-instant burst admits exactly `min(n, floor(tokens))` requests,
      counted the way `RunRateBound` counts admissions. */
  lemma BurstAdmittedCount(b: Bucket, n: nat)
    requires Valid(b)
    ensures Admitted(Run(b, Repeat(b.last, n)).verdicts) == BurstSize(b, n)
  {
    var k := BurstSize(b, n);
    SameInstantBurst(b, n);
    AdmittedAppend(Repeat(true, k), Repeat(false, n - k));
    AdmittedRepeat(true, k);
    AdmittedRepeat(false, n - k);
  }

  /** `n` copies of one verdict count `n` admissions or none. */
  lemma {:induction false} AdmittedRepeat(v: bool, n: nat)
    ensures Admitted(Repeat(v, n)) == if v then n else 0
  {
    if n > 0 {
      AdmittedRepeat(v, n - 1);
    }
  }

  lemma {:induction false} AdmittedAppend(a: seq<bool>, c: seq<bool>)
    ensures Admitted(a + c) == Admitted(a) + Admitted(c)
  {
    if |a| > 0 {
      assert (a + c)[1..] == a[1..] + c;
      AdmittedAppend(a[1..], c);
    } else {
      assert a + c == c;
    }
  }

  // ---------------------------------------------------------------------
  // The store: every address's bucket, one request at a time
  // ---------------------------------------------------------------------

  type Store = map<string, Bucket>

  function Read(store: Store, ip: string): StoreRead {
    if ip in store then Hit(store[ip]) else Miss
  }

  /** The bucket a request from `ip` at `now` is decided on. */
  function Current(store: Store, ip: string, now: int): Bucket {
    if ip in store then store[ip] else Fresh(now)
  }

  datatype Served = Served(store: Store, admitted: bool)

  /** One request against a store that does not fail, with both clock
      readings equal: the bucket is loaded, stepped and written back under
      the same address, and no other address's record changes. */
  function Serve(store: Store, ip: string, now: int): (r: Served)
    ensures r.store == store[ip := Step(Current(store, ip, now), now).bucket]
    ensures r.admitted == Step(Current(store, ip, now), now).admitted
  {
    var a := RateLimit(Read(store, ip), now, now);
    Served(store[ip := a.saved.value], a.decision == Allow)
  }

  datatype Request = Request(ip: string, time: int)

  datatype Replay = Replay(store: Store, verdicts: seq<bool>)

  /** Requests from any mix of addresses, served in order. */
  function ServeAll(store: Store, reqs: seq<Request>): (r: Replay)
    ensures |r.verdicts| == |reqs|
    decreases |reqs|
  {
    if |reqs| == 0 then Replay(store, [])
    else
      var s := Serve(store, reqs[0].ip, reqs[0].time);
      var rest := ServeAll(s.store, reqs[1..]);
      Replay(rest.store, [s.admitted] + rest.verdicts)
  }

  /** The timestamps of the requests from `ip`. */
  function TimesOf(reqs: seq<Request>, ip: string): seq<int> {
    if |reqs| == 0 then []
    else (if reqs[0].ip == ip then [reqs[0].time] else []) + TimesOf(reqs[1..], ip)
  }

  /** The verdicts given to the requests from `ip`. */
  function VerdictsOf(reqs: seq<Request>, verdicts: seq<bool>, ip: string): seq<bool>
    requires |verdicts| == |reqs|
  {
    if |reqs| == 0 then []
    else (if reqs[0].ip == ip then [verdicts[0]] else []) + VerdictsOf(reqs[1..], verdicts[1..], ip)
  }

  /** The decisions one address receives when it acts alone. */
  function RunAddress(store: Store, ip: string, times: seq<int>): seq<bool> {
    if ip in store then Run(store[ip], times).verdicts
    else if |times| == 0 then []
    else Run(Fresh(times[0]), times).verdicts
  }

  /** Addresses do not interfere: interleaving other addresses' requests
      changes nothing about the verdicts one address receives, which are
      those of its own bucket run over its own timestamps. */
  lemma {:induction false} AddressesAreIndependent(store: Store, reqs: seq<Request>, ip: string)
    ensures VerdictsOf(reqs, ServeAll(store, reqs).verdicts, ip)
      == RunAddress(store, ip, TimesOf(reqs, ip))
    decreases |reqs|
  {
    if |reqs| > 0 {
      var r := reqs[0];
      var s := Serve(store, r.ip, r.time);
      var rest := ServeAll(s.store, reqs[1..]);
      AddressesAreIndependent(s.store, reqs[1..], ip);
      assert ServeAll(store, reqs).verdicts == [s.admitted] + rest.verdicts;
      assert ([s.admitted] + rest.verdicts)[1..] == rest.verdicts;
      if r.ip == ip {
        var times := TimesOf(reqs, ip);
        assert times == [r.time] + TimesOf(reqs[1..], ip);
        assert times[1..] == TimesOf(reqs[1..], ip);
        var b := Current(store, ip, r.time);
        assert RunAddress(store, ip, times) == [s.admitted] + Run(Step(b, r.time).bucket, times[1..]).verdicts;
      } else {
        assert TimesOf(reqs, ip) == TimesOf(reqs[1..], ip);
        assert ip in s.store <==> ip in store;
        assert ip in store ==> s.store[ip] == store[ip];
      }
    }
  }
}

=== FILE: text.dfy ===
/** The JavaScript string built-ins the handlers rely on: whitespace
    trimming, `split(' ')`, `includes`, `toUpperCase`, `parseInt` and the
    decimal rendering of an integer inside a template literal. Strings are
    sequences of Unicode scalar values (`char`); JavaScript's UTF-16 code
    units, and the surrogate pairs they form, are not modelled. */
module Text {
  import opened Errors

  // ---------------------------------------------------------------------
  // Whitespace and trimming
  // ---------------------------------------------------------------------

  /** ECMAScript WhiteSpace and LineTerminator code points (the set both
      `String.prototype.trim` and `parseInt` skip). */
  predicate IsWhiteSpace(c: char) {
    || c == '\t' || c == '\n' || c == '\U{000B}' || c == '\U{000C}' || c == '\r'
    || c == ' ' || c == '\U{00A0}' || c == '\U{1680}'
    || ('\U{2000}' <= c <= '\U{200A}')
    || c == '\U{2028}' || c == '\U{2029}' || c == '\U{202F}' || c == '\U{205F}'
    || c == '\U{3000}' || c == '\U{FEFF}'
  }

  predicate AllWhiteSpace(s: string) {
    forall i :: 0 <= i < |s| ==> IsWhiteSpace(s[i])
  }

  /** Drops the leading whitespace. */
  function TrimStart(s: string): (r: string)
    ensures |r| <= |s| && r == s[|s| - |r|..]
    ensures AllWhiteSpace(s[..|s| - |r|])
    ensures r == [] || !IsWhiteSpace(r[0])
  {
    if |s| > 0 && IsWhiteSpace(s[0]) then
      var r := TrimStart(s[1..]);
      WhiteSpaceBeforeSuffix(s, r);
      r
    else s
  }

  /** A suffix of `s[1..]` with only whitespace before it still has only
      whitespace before it in `s` when `s[0]` is whitespace. */
  lemma WhiteSpaceBeforeSuffix(s: string, r: string)
    requires |s| > 0 && IsWhiteSpace(s[0])
    requires |r| <= |s| - 1 && r == s[1..][|s| - 1 - |r|..]
    requires AllWhiteSpace(s[1..][..|s| - 1 - |r|])
    ensures r == s[|s| - |r|..] && AllWhiteSpace(s[..|s| - |r|])
  {
    assert s[|s| - |r|..] == s[1..][|s| - 1 - |r|..];
    assert s[..|s| - |r|] == [s[0]] + s[1..][..|s| - 1 - |r|];
  }

  /** Drops the trailing whitespace. */
  function TrimEnd(s: string): (r: string)
    ensures |r| <= |s| && r == s[..|r|]
    ensures AllWhiteSpace(s[|r|..])
    ensures r == [] || !IsWhiteSpace(r[|r| - 1])
  {
    if |s| > 0 && IsWhiteSpace(s[|s| - 1]) then
      var r := TrimEnd(s[..|s| - 1]);
      assert s[|r|..] == s[..|s| - 1][|r|..] + [s[|s| - 1]];
      r
    else s
  }

  /** `String.prototype.trim`. */
  function Trim(s: string): string {
    TrimEnd(TrimStart(s))
  }

  /** Leading whitespace never changes what `TrimStart` leaves. */
  lemma {:induction false} TrimStartSkipsPadding(pad: string, s: string)
    requires AllWhiteSpace(pad)
    ensures TrimStart(pad + s) == TrimStart(s)
    decreases |pad|
  {
    if |pad| > 0 {
      assert (pad + s)[1..] == pad[1..] + s;
      TrimStartSkipsPadding(pad[1..], s);
    } else {
      assert pad + s == s;
    }
  }

  // ---------------------------------------------------------------------
  // Substrings
  // ---------------------------------------------------------------------

  /** `w` occurs in `s` starting at position `i`. */
  predicate OccursAt(s: string, w: string, i: int) {
    0 <= i && i + |w| <= |s| && s[i..i + |w|] == w
  }

  /** `String.prototype.includes`, scanning from the left. */
  predicate Contains(s: string, w: string)
    decreases |s|
  {
    if |w| > |s| then false
    else if s[..|w|] == w then true
    else Contains(s[1..], w)
  }

  /** The scan finds `w` exactly when `w` occurs somewhere in `s`. */
  lemma {:induction false} ContainsIff(s: string, w: string)
    ensures Contains(s, w) <==> exists i :: OccursAt(s, w, i)
    decreases |s|
  {
    if |w| > |s| {
    } else if s[..|w|] == w {
      assert OccursAt(s, w, 0);
    } else {
      ContainsIff(s[1..], w);
      if Contains(s[1..], w) {
        var i :| OccursAt(s[1..], w, i);
        assert s[1..][i..i + |w|] == s[i + 1..i + 1 + |w|];
        assert OccursAt(s, w, i + 1);
      } else {
        forall i | OccursAt(s, w, i)
          ensures false
        {
          assert i != 0;
          assert s[1..][i - 1..i - 1 + |w|] == s[i..i + |w|];
          assert OccursAt(s[1..], w, i - 1);
        }
      }
    }
  }

  // ---------------------------------------------------------------------
  // split(' ') and join(' ')
  // ---------------------------------------------------------------------

  /** Position of the first `c` in `s`, or `|s|` when there is none. */
  function IndexOf(s: string, c: char): (i: nat)
    ensures i <= |s|
    ensures i < |s| ==> s[i] == c
    ensures c !in s[..i]
    ensures i == |s| <==> c !in s
  {
    if |s| == 0 then 0
    else if s[0] == c then 0
    else
      var j := IndexOf(s[1..], c);
      assert s[..1 + j] == [s[0]] + s[1..][..j];
      1 + j
  }

  /** `String.prototype.split` with a one-character separator: every field,
      empty ones included, in order. */
  function Split(s: string, sep: char): (parts: seq<string>)
    ensures |parts| >= 1
    ensures forall k :: 0 <= k < |parts| ==> sep !in parts[k]
    ensures parts[0] == s[..IndexOf(s, sep)]
    decreases |s|
  {
    var i := IndexOf(s, sep);
    if i == |s| then [s] else [s[..i]] + Split(s[i + 1..], sep)
  }

  /** `Array.prototype.join` with a one-character separator. */
  function Join(parts: seq<string>, sep: char): string
    requires |parts| >= 1
  {
    if |parts| == 1 then parts[0] else parts[0] + [sep] + Join(parts[1..], sep)
  }

  /** Joining the fields restores the string that was split. */
  lemma {:induction false} JoinSplit(s: string, sep: char)
    ensures Join(Split(s, sep), sep) == s
    decreases |s|
  {
    var i := IndexOf(s, sep);
    if i < |s| {
      var tail := Split(s[i + 1..], sep);
      assert Split(s, sep) == [s[..i]] + tail;
      JoinSplit(s[i + 1..], sep);
      JoinCons(s[..i], tail, sep);
      assert s == s[..i] + [sep] + s[i + 1..];
    }
  }

  /** Joining a first field onto further fields puts one separator between. */
  lemma JoinCons(head: string, tail: seq<string>, sep: char)
    requires |tail| >= 1
    ensures Join([head] + tail, sep) == head + [sep] + Join(tail, sep)
  {
    assert ([head] + tail)[1..] == tail;
  }

  /** Splitting a join of separator-free fields gives the fields back. */
  lemma {:induction false} SplitJoin(parts: seq<string>, sep: char)
    requires |parts| >= 1
    requires forall k :: 0 <= k < |parts| ==> sep !in parts[k]
    ensures Split(Join(parts, sep), sep) == parts
    decreases |parts|
  {
    if |parts| == 1 {
      assert sep !in parts[0];
    } else {
      var head := parts[0];
      var tail := parts[1..];
      var rest := Join(tail, sep);
      assert Join(parts, sep) == head + [sep] + rest;
      assert sep !in head;
      SplitCons(head, sep, rest);
      SplitJoin(tail, sep);
      assert parts == [head] + tail;
    }
  }

  /** A separator-free field followed by the separator is split off whole. */
  lemma SplitCons(head: string, sep: char, rest: string)
    requires sep !in head
    ensures Split(head + [sep] + rest, sep) == [head] + Split(rest, sep)
  {
    var s := head + [sep] + rest;
    IndexOfAfterFree(head, sep, rest);
    assert s[..|head|] == head;
    assert s[|head| + 1..] == rest;
  }

  /** The first separator is where a separator-free prefix ends. */
  lemma FirstSeparatorAt(s: string, c: char, i: nat)
    requires i <= |s| && c !in s[..i]
    requires i == |s| || s[i] == c
    ensures IndexOf(s, c) == i
  {
  }

  /** The first separator of `a + [c] + b` sits right after a separator-free `a`. */
  lemma IndexOfAfterFree(a: string, c: char, b: string)
    requires c !in a
    ensures IndexOf(a + [c] + b, c) == |a|
  {
    var s := a + [c] + b;
    assert s[|a|] == c;
    assert s[..|a|] == a;
  }

  // ---------------------------------------------------------------------
  // toUpperCase
  // ---------------------------------------------------------------------

  function ToUpperChar(c: char): char {
    if 'a' <= c <= 'z' then (c as int - 32) as char else c
  }

  /** `String.prototype.toUpperCase` restricted to ASCII letters. */
  function ToUpper(s: string): (r: string)
    ensures |r| == |s|
    ensures forall i :: 0 <= i < |s| ==> r[i] == ToUpperChar(s[i])
  {
    if |s| == 0 then [] else [ToUpperChar(s[0])] + ToUpper(s[1..])
  }

  // ---------------------------------------------------------------------
  // Digits, parseInt and decimal rendering
  // ---------------------------------------------------------------------

  /** Value of a character read as a digit in radix 36; 36 for a non-digit. */
  function DigitValue(c: char): nat {
    if '0' <= c <= '9' then c as int - '0' as int
    else if 'a' <= c <= 'z' then c as int - 'a' as int + 10
    else if 'A' <= c <= 'Z' then c as int - 'A' as int + 10
    else 36
  }

  predicate IsDigit(c: char, radix: nat) {
    DigitValue(c) < radix
  }

  predicate IsDecimalDigit(c: char) {
    '0' <= c <= '9'
  }

  /** Length of the longest prefix of `s` made of radix digits. */
  function DigitRun(s: string, radix: nat): (n: nat)
    ensures n <= |s|
    ensures forall i :: 0 <= i < n ==> IsDigit(s[i], radix)
    ensures n < |s| ==> !IsDigit(s[n], radix)
  {
    if |s| == 0 || !IsDigit(s[0], radix) then 0 else 1 + DigitRun(s[1..], radix)
  }

  /** The number a string of radix digits denotes, most significant first. */
  function DigitsValue(s: string, radix: nat): nat {
    if |s| == 0 then 0
    else DigitsValue(s[..|s| - 1], radix) * radix + DigitValue(s[|s| - 1])
  }

  /** The global `parseInt(s)` with no radix argument: skip leading
      whitespace, read an optional sign, switch to radix 16 on a `0x`/`0X`
      prefix, then read the longest run of digits. `None` stands for `NaN`;
      `-0` is reported as `Some(0)`, which is just as falsy. */
  function ParseInt(s: string): Option<int> {
    var m := ScanNumeral(s);
    var n := DigitRun(m.digits, m.radix);
    if n == 0 then None
    else
      var v: int := DigitsValue(m.digits[..n], m.radix);
      Some(if m.negative then -v else v)
  }

  /** What `parseInt` has decided before it reads any digit: the sign, the
      radix, and the text where the digits start. */
  datatype Numeral = Numeral(negative: bool, radix: nat, digits: string)

  function ScanNumeral(s: string): Numeral {
    var t := TrimStart(s);
    var negative := |t| > 0 && t[0] == '-';
    var u := if |t| > 0 && (t[0] == '-' || t[0] == '+') then t[1..] else t;
    var hex := |u| >= 2 && u[0] == '0' && (u[1] == 'x' || u[1] == 'X');
    Numeral(negative, if hex then 16 else 10, if hex then u[2..] else u)
  }

  function DigitChar(d: nat): (c: char)
    requires d < 10
    ensures IsDecimalDigit(c) && DigitValue(c) == d
  {
    (d + '0' as int) as char
  }

  /** The decimal text of a natural number, as a template literal renders it. */
  function NatToString(n: nat): (s: string)
    ensures |s| >= 1
    ensures forall i :: 0 <= i < |s| ==> IsDecimalDigit(s[i])
    ensures n > 0 ==> s[0] != '0'
    ensures n == 0 ==> s == "0"
  {
    if n < 10 then [DigitChar(n)] else NatToString(n / 10) + [DigitChar(n % 10)]
  }

  /** Reading back the decimal digits of `n` gives `n`. */
  lemma {:induction false} DigitsValueNatToString(n: nat)
    ensures DigitsValue(NatToString(n), 10) == n
  {
    var s := NatToString(n);
    if n >= 10 {
      DigitsValueNatToString(n / 10);
      assert s[..|s| - 1] == NatToString(n / 10);
    }
  }

  /** `parseInt` reads a rendered natural number back exactly. */
  lemma ParseIntNatToString(n: nat)
    ensures ParseInt(NatToString(n)) == Some(n)
  {
    var s := NatToString(n);
    assert !IsWhiteSpace(s[0]);
    assert TrimStart(s) == s;
    assert ScanNumeral(s) == Numeral(false, 10, s);
    DigitRunAll(s, 10);
    assert s[..|s|] == s;
    DigitsValueNatToString(n);
  }

  /** A string of radix digits is read to its end. */
  lemma {:induction false} DigitRunAll(s: string, radix: nat)
    requires forall i :: 0 <= i < |s| ==> IsDigit(s[i], radix)
    ensures DigitRun(s, radix) == |s|
  {
    if |s| > 0 {
      DigitRunAll(s[1..], radix);
    }
  }
}

=== FILE: users.dfy ===
/** The user routes: account creation, login and reading an account.
    Storing the account, hashing the password and signing the token are
    outside the model: the stored account is a `Lookup`, and the password
    check is the parameter `validatePassword`. */
module Users {
  import opened Errors
  import opened Text
  import opened Authentication

  /** The request body of POST /users and POST /users/login. */
  datatype UserBody = UserBody(
    username: Option<string>,
    password: Option<string>,
    priviledge: Option<string>)

  /** A stored account; the salt and hash are opaque and left out. */
  datatype Account = Account(id: string, username: string, priviledge: string)

  const NoPriviledge := "A priviledge path is required within the request body"
  const NoPassword := "A password path is required within the request body"
  const CannotCreate := "Unauthorized to create the account"
  const BadLogin := "request to login must contain a body with username and password"
  const NotAuthorized := "request is unauthorized"

  /** The access level a request acts with: `GUEST` when anonymous. */
  function ClientAccessLevel(user: Option<Payload>): string {
    match user
    case None => "GUEST"
    case Some(u) => u.accessLevel
  }

  /** The privilege the new account gets: the schema upper-cases it. */
  function RequestedPriviledge(body: UserBody): string
    requires body.priviledge.Some?
  {
    ToUpper(body.priviledge.value)
  }

  /** Who may open an account of which privilege: an administrator any,
      everyone else only STANDARD or PRO. */
  predicate MayGrant(level: string, requested: string) {
    level == "ADMIN" || requested == "STANDARD" || requested == "PRO"
  }

  /** POST /users: the privilege must be given (400), then the password
      (400), then the caller must be allowed to grant it (403). */
  function CreateUser(user: Option<Payload>, body: UserBody): (d: Decision)
    ensures !Truthy(body.priviledge) ==> d == Deny(Raise("Validation", NoPriviledge, 400))
    ensures Truthy(body.priviledge) && !Truthy(body.password) ==>
      d == Deny(Raise("Validation", NoPassword, 400))
    ensures Truthy(body.priviledge) && Truthy(body.password) ==>
      (d.Allow? <==> MayGrant(ClientAccessLevel(user), RequestedPriviledge(body)))
    ensures d.Deny? && Truthy(body.priviledge) && Truthy(body.password) ==>
      d.error == Raise("Authorization", CannotCreate, 403)
  {
    var level := ClientAccessLevel(user);
    if !Truthy(body.priviledge) then Deny(Raise("Validation", NoPriviledge, 400))
    else if !Truthy(body.password) then Deny(Raise("Validation", NoPassword, 400))
    else if level == "ADMIN" || RequestedPriviledge(body) == "STANDARD" || RequestedPriviledge(body) == "PRO"
    then Allow
    else Deny(Raise("Authorization", CannotCreate, 403))
  }

  /** An anonymous request can open STANDARD and PRO accounts, in any
      letter case, and never an ADMIN one. */
  lemma GuestSignUp(body: UserBody)
    requires Truthy(body.priviledge) && Truthy(body.password)
    ensures ToUpper(body.priviledge.value) == "ADMIN" ==>
      CreateUser(None, body) == Deny(Raise("Authorization", CannotCreate, 403))
    ensures ToUpper(body.priviledge.value) in {"STANDARD", "PRO"} ==> CreateUser(None, body) == Allow
  {
  }

  /** An administrator may open an account of any privilege, once the body
      names one and a password. */
  lemma AdminCreatesAnyAccount(admin: Payload, body: UserBody)
    requires IsAdmin(admin)
    requires Truthy(body.priviledge) && Truthy(body.password)
    ensures CreateUser(Some(admin), body) == Allow
  {
  }

  /** The body checks come first: a body without a privilege is refused
      with 400 whoever asks, even an administrator. */
  lemma MissingPriviledgeBeforePermission(user: Option<Payload>, body: UserBody)
    requires !Truthy(body.priviledge)
    ensures CreateUser(user, body).Deny? && CreateUser(user, body).error.statusCode == Some(400)
    ensures CreateUser(user, body).error.message == NoPriviledge
  {
  }

  /** POST /users/login: username and password must both be given (400);
      an unknown user or a wrong password is 401; success hands the signer
      the account's id, name and privilege. */
  function Login(body: UserBody, found: Lookup<Account>, validatePassword: (Account, string) -> bool): (r: Outcome<Payload>)
    ensures !(Truthy(body.username) && Truthy(body.password)) ==>
      r == Fail(Raise("Validation", BadLogin, 400))
    ensures Truthy(body.username) && Truthy(body.password) && found.Failed? ==>
      r == Fail(found.error)
    ensures r.Ok? <==>
      && Truthy(body.username) && Truthy(body.password)
      && found.Found? && validatePassword(found.doc, body.password.value)
    ensures r.Ok? ==>
      && r.value.id == found.doc.id
      && r.value.username == found.doc.username
      && r.value.accessLevel == found.doc.priviledge
    ensures Truthy(body.username) && Truthy(body.password) && !found.Failed? && r.Fail? ==>
      r.error == Raise("Authorization", NotAuthorized, 401)
  {
    if !(Truthy(body.username) && Truthy(body.password)) then Fail(Raise("Validation", BadLogin, 400))
    else
      match found
      case Failed(e) => Fail(e)
      case Missing => Fail(Raise("Authorization", NotAuthorized, 401))
      case Found(a) =>
        if !validatePassword(a, body.password.value) then Fail(Raise("Authorization", NotAuthorized, 401))
        else Ok(GenerateAuthToken(a.id, a.username, a.priviledge))
  }

  /** A successful login yields a token that authenticates its holder as
      the account that logged in, with the account's privilege as access
      level, provided the verifier accepts what the signer produced. */
  lemma LoginTokenAuthenticates(
    body: UserBody, found: Lookup<Account>, validatePassword: (Account, string) -> bool,
    sign: Payload -> string, verify: string -> Option<Payload>)
    requires Login(body, found, validatePassword).Ok?
    requires var p := Login(body, found, validatePassword).value;
      ' ' !in sign(p) && verify(sign(p)) == Some(p)
    ensures var p := Login(body, found, validatePassword).value;
      var user := RequireAuthentication(Some("Bearer " + sign(p)), verify);
      && user.Some?
      && user.value.id == found.doc.id
      && (IsAdmin(user.value) <==> found.doc.priviledge == "ADMIN")
  {
    IssuedTokenAuthenticates(Login(body, found, validatePassword).value, sign, verify);
  }

  /** GET /users/:userId: the account holder or an administrator; otherwise
      401 when anonymous and 403 when authenticated. */
  function FetchUser(user: Option<Payload>, userId: string): (d: Decision)
    ensures d.Allow? <==> user.Some? && (user.value.id == userId || IsAdmin(user.value))
    ensures d.Deny? ==>
      d.error == Raise("Validation", NotAuthorized, if user.None? then 401 else 403)
  {
    if user.Some? && (user.value.id == userId || IsAdmin(user.value)) then Allow
    else Deny(Raise("Validation", NotAuthorized, if user.None? then 401 else 403))
  }

  /** Account details are private: a caller other than the holder reads
      them only as an administrator, and a STANDARD or PRO caller can read
      its own account and no other. */
  lemma FetchUserIsPrivate(u: Payload, userId: string)
    requires !IsAdmin(u)
    ensures FetchUser(Some(u), userId).Allow? <==> u.id == userId
  {
  }
}
